=== FILE: README.md ===
# Connectivity probe of the admin web application

The application has two HTTP endpoints that check whether a TCP port, and in
particular an SMTP port, can be reached from where the application runs:

- `POST /api/test-port` (src/app/api/test-port/route.ts) takes `{ host, port }`. It
  refuses missing or out-of-range values with status 400 and otherwise runs
  `testConnection`. That function opens a socket and arms a 10-second timer.
  On the SMTP ports 25, 587 and 465 it writes `EHLO test.com` and reads the
  reply until it holds a CRLF. It frames the reply into lines, parses the
  capabilities and answers with the result. Failures are classified by
  socket error code into lists of suggestions.
- `GET /api/test-port25` (src/app/api/test-port25/route.ts) probes one fixed
  Office 365 host on port 25. It writes `EHLO test.example.com` and records
  each reply chunk. It answers 408 when the timer fires, 500 on a socket
  error, and 200 when the socket closes after a successful connect.

The two endpoints parse EHLO replies differently. Both recognise a reply line
only by its `250-` / `250 ` prefix (the multi-line reply of section 4.1.1.1
of RFC 5321). The generic prober trims each remainder and drops any that
holds a space, so `250-AUTH LOGIN` is lost. The port-25 prober keeps the
first line as the server banner and keeps remainders with spaces, untrimmed.

The model is written in Dafny. Its modules are:

- `Text`: the JavaScript string primitives used, with the ECMAScript
  white-space set of `trim` and `\s`.
- `Decimal`: how a number is rendered in a template literal.
- `SocketEvents`: the event trace, socket errors and endpoint formatting.
- `Smtp`: both reply parsers. `SmtpExamples` works them through the reply
  `220 hello / 250-AUTH LOGIN / 250 OK`.
- `Diagnostics`: both error-code tables.
- `PortProbe`: `testConnection` as a function of the event trace.
- `TestPortApi`: the POST handler.
- `Port25Probe`: the port-25 `GET` as a function of the event trace.

How the trace is modelled:

- The socket and the timer are a sequence of events: `Timeout`,
  `Connect(local, remote)`, `Data(chunk)`, `Error(err)` and `Close`.
- The first `resolve` wins. The model takes the result as it stood at that
  moment, and later events change nothing.
- A probe that never resolves yields `None`.

Behaviour worth knowing:

- The generic parser has no banner, and it drops capabilities that contain
  a space: the example reply gives `["OK"]`.
- Connect clears the only timer. There is no handshake timeout, and a server
  that never sends a CRLF (or, on port 25, never closes) leaves the request
  unanswered.
- An error after connect overwrites the message but leaves `success = true`,
  in both probers.
- The generic POST answers 200 for every probe outcome, failures included.

## Model

| member | source | states |
|---|---|---|
| Text.Trim | src/app/api/test-port/route.ts:169 | `trim` gives the empty string exactly when the input is all white space; otherwise the result has no white space at either end |
| Text.TrimSlice | src/app/api/test-port/route.ts:169 | `trim` only removes white space: the result is a slice of the input between a blank prefix and a blank suffix |
| Text.TrimStart | src/app/api/test-port/route.ts:169 | what `\s*` consumes at the front: the longest suffix that does not start with white space, after a blank prefix |
| Text.SplitCrlf | src/app/api/test-port/route.ts:101 | `split('\r\n')` gives at least one piece; no piece holds a CRLF; joining the pieces with CRLF rebuilds the input |
| Text.SplitJoin | src/app/api/test-port/route.ts:101 | the reverse round trip: CRLF-free pieces joined with CRLF split back into the same pieces |
| Text.SplitAfterFirstPiece | src/app/api/test-port/route.ts:101 | the first piece is the text before the first CRLF, and the rest is the split of what follows it |
| Text.SplitWithoutCrlf | src/app/api/test-port/route.ts:101 | text without a CRLF splits into itself alone |
| Text.Join | src/app/api/test-port/route.ts:102 | `lines.join(sep)`: no lines give the empty string, one line gives itself, otherwise the first line opens the result; SplitJoin and SplitCrlf make it the inverse of `split('\r\n')` |
| Text.JoinSnoc | src/app/api/test-port/route.ts:102 | a line added at the end of a join follows the separator after the others |
| Text.DropBlank | src/app/api/test-port/route.ts:101 | `filter(line => line.trim())` keeps only non-blank lines, each taken from the input, never more lines than the input |
| Text.DropBlankKeeps | src/app/api/test-port/route.ts:101 | no non-blank line is dropped |
| Text.DropBlankAppend | src/app/api/test-port/route.ts:101 | filtering goes line by line: the lines kept from two runs are those kept from each, in the same order |
| Text.DropBlankSingle | src/app/api/test-port/route.ts:101 | a single line is kept exactly when it is not blank |
| Text.DropBlankOfSplit | src/app/api/test-port/route.ts:101 | splitting and filtering leaves nothing exactly when the whole text is blank |
| Text.DropBlankEmpty | src/app/api/test-port/route.ts:101 | filtering leaves nothing exactly when every line is blank |
| Text.JoinBlank | src/app/api/test-port/route.ts:101 | joining with a blank separator is blank exactly when every piece is |
| Decimal.NatToString | src/app/api/test-port/route.ts:87-88 | `${localPort}`: a non-empty string of digits with no leading zero, whose decimal value is the number |
| Decimal.IntToString | src/app/api/test-port/route.ts:86 | `${port}`: a minus sign exactly for negative numbers, followed by the digits of the magnitude with no leading zero unless it is zero |
| SocketEvents.FormatEndpoint | src/app/api/test-port/route.ts:87-88 | `${address}:${port}`: the address, a colon, then digits with no leading zero (unless the port is 0) whose value is the port |
| SocketEvents.FormatEndpointInjective | src/app/api/test-port/route.ts:87-88 | different endpoints format differently, including IPv6 addresses that contain colons |
| SocketEvents.DataEvents | src/app/api/test-port/route.ts:96 | one data event per chunk, in order |
| SocketEvents.Concat | src/app/api/test-port/route.ts:95-97 | the buffer built from the chunks is empty before any chunk and otherwise opens with the first chunk |
| SocketEvents.ConcatSnoc | src/app/api/test-port/route.ts:97 | `response += data` puts each chunk on the end of what came before |
| SocketEvents.IncludesCrlfExtend | src/app/api/test-port/route.ts:100 | once the buffer holds a CRLF, further data cannot remove it |
| Smtp.ReplyLines | src/app/api/test-port/route.ts:101 | the kept reply lines are non-blank and CRLF-free, and there are none exactly when the reply is blank |
| Smtp.ReplyLinesMembership | src/app/api/test-port/route.ts:101 | a string is a kept reply line exactly when it is a non-blank piece between CRLFs of the reply (both directions) |
| Smtp.ReplyLinesFrame | src/app/api/test-port/route.ts:101 | framing reads from the front: the piece before the first CRLF comes first when it is not blank, then the lines of the rest, so lines keep the order of the reply |
| Smtp.StripReplyCode | src/app/api/test-port/route.ts:169 | removing `^250-?\s*` leaves a suffix of the line at least 4 shorter that does not start with white space |
| Smtp.StripReplyCodeCut | src/app/api/test-port/route.ts:169 | what is removed is `250`, then only white space, or a hyphen followed only by white space |
| Smtp.StripReplyCodeRoundTrip | src/app/api/test-port/route.ts:168-169 | `250-` or `250 ` followed by text not starting with white space is a reply line, and stripping it gives that text back |
| Smtp.TrimFixed | src/app/api/test-port/route.ts:169 | text with no white space at either end is its own trim |
| Smtp.Contribution | src/app/api/test-port/route.ts:168-171 | one line adds at most one capability, and what it adds is non-empty, space-free and trimmed |
| Smtp.ContributionYields | src/app/api/test-port/route.ts:168-171 | a line adds `c` exactly when it is a 250 line whose stripped and trimmed remainder is `c` and `c` is non-empty and space-free |
| Smtp.ParseCapabilities | src/app/api/test-port/route.ts:164-177 | no more capabilities than lines, and every capability is non-empty, holds no space and has no white space at either end |
| Smtp.ParseCapabilitiesAppend | src/app/api/test-port/route.ts:165-176 | parsing distributes over concatenation, so capabilities keep the order of their lines |
| Smtp.ParseCapabilitiesMembership | src/app/api/test-port/route.ts:167-172 | a string is emitted exactly when some 250 line yields it after stripping and trimming, non-empty and space-free (both directions) |
| Smtp.ContributedBy | src/app/api/test-port/route.ts:167-173 | a string is emitted exactly when some line's own contribution holds it |
| Smtp.ParseCapabilitiesIgnoresOtherLines | src/app/api/test-port/route.ts:167-168 | a line without the 250 prefix, such as the 220 greeting, changes nothing wherever it stands |
| Smtp.FeatureContribution | src/app/api/test-port25/route.ts:134-139 | a later line adds at most one feature, non-empty and not starting with white space |
| Smtp.Features | src/app/api/test-port25/route.ts:130-141 | no more features than lines, each non-empty and not starting with white space |
| Smtp.FeaturesAppend | src/app/api/test-port25/route.ts:130-141 | the feature list distributes over concatenation, so features keep their input order |
| Smtp.FeaturesMembership | src/app/api/test-port25/route.ts:134-139 | a string is a feature exactly when some 250 line, stripped of its code, leaves that non-empty string, spaces kept |
| Smtp.FeatureContributedBy | src/app/api/test-port25/route.ts:130-141 | a string is a feature exactly when some later line's own contribution holds it |
| Smtp.ParseGreeting | src/app/api/test-port25/route.ts:117-144 | the banner is empty exactly when the response is blank, and then there are no features; the banner holds no CRLF; there are fewer features than kept lines |
| Smtp.ParseGreetingFirstLine | src/app/api/test-port25/route.ts:120-133 | a non-blank piece before the first CRLF is the banner and never a feature, even if it starts with 250; features come only from the lines after it |
| Smtp.BlankFirstPiece | src/app/api/test-port25/route.ts:120-133 | a blank piece before the first CRLF is dropped before the banner is chosen, so the banner is the first non-blank piece |
| Smtp.GreetingWithoutCrlf | src/app/api/test-port25/route.ts:120-133 | a non-blank reply with no CRLF, such as a single unterminated chunk, is itself the banner and has no features |
| SmtpExamples.ReplyLinesOfExample | src/app/api/test-port/route.ts:101 | the example reply frames into its three lines, and the empty piece after the final CRLF is dropped |
| SmtpExamples.GenericParserExample | src/app/api/test-port/route.ts:164-177 | on `220 hello / 250-AUTH LOGIN / 250 OK` the generic parser yields only `["OK"]` |
| SmtpExamples.Port25ParserExample | src/app/api/test-port25/route.ts:117-144 | on the same reply the port-25 parser yields banner `220 hello` and features `["AUTH LOGIN", "OK"]` |
| Diagnostics.Classify | src/app/api/test-port/route.ts:130-148 | each of ECONNREFUSED, ENOTFOUND, ETIMEDOUT and EACCES has its own kind, exactly for that code |
| Diagnostics.OrElse | src/app/api/test-port/route.ts:124-126 | the reported `code` (fallback `UNKNOWN`) and `syscall` (fallback `unknown`) are the error's value unless it is missing or empty, in which case the fallback; never empty |
| Diagnostics.Suggestions | src/app/api/test-port/route.ts:129-154 | every code gets exactly three suggestions, and the general list exactly when the code is none of the three known ones |
| Diagnostics.SuggestionsSeparateKinds | src/app/api/test-port/route.ts:130-154 | two codes get the same suggestions exactly when the generic prober does not tell them apart |
| Diagnostics.Port25Advice | src/app/api/test-port25/route.ts:86-102 | the "Unknown connection error" pair is given exactly for codes other than the four known ones |
| Diagnostics.Port25AdviceSeparatesKinds | src/app/api/test-port25/route.ts:87-102 | two codes get the same suggestion and recommendation exactly when they are of the same kind |
| Diagnostics.OnlyPort25KnowsEacces | src/app/api/test-port25/route.ts:96-98 | EACCES gets the general suggestions from the generic prober but its own advice from the port-25 prober |
| PortProbe.StepInv | src/app/api/test-port/route.ts:63-157 | every listener keeps the probe's invariant: identity fields fixed, success only after connect with TCP and EHLO on SMTP ports, failures empty and shaped as timeout or error |
| PortProbe.ConnectInv | src/app/api/test-port/route.ts:76-118 | the connect listener keeps the invariant |
| PortProbe.ErrorInv | src/app/api/test-port/route.ts:120-157 | the error listener keeps the invariant, before and after the connection |
| PortProbe.DataInv | src/app/api/test-port/route.ts:96-112 | the data listener keeps the invariant; capabilities stay single tokens |
| PortProbe.RunInv | src/app/api/test-port/route.ts:63-160 | the invariant holds after any trace |
| PortProbe.TestConnection | src/app/api/test-port/route.ts:25-162 | the result names the probed host, port and public address; a success is TCP and wrote EHLO exactly on SMTP ports; a failure wrote nothing and is the timeout or an error; capabilities appear only on SMTP ports and are single tokens |
| PortProbe.RunAppend | src/app/api/test-port/route.ts:63-160 | running a trace in two parts is running it whole |
| PortProbe.SettledIsFinal | src/app/api/test-port/route.ts:73 | once resolved, no later event changes the outcome |
| PortProbe.QuietWhileConnecting | src/app/api/test-port/route.ts:76-120 | before the connection, data and close events have no listener and change nothing |
| PortProbe.FirstDecisiveEvent | src/app/api/test-port/route.ts:64-157 | the first timeout, connect or error decides the probe, and nothing before it matters |
| PortProbe.TimeoutOutcome | src/app/api/test-port/route.ts:64-74 | a timer firing first fails the probe with `Connection timeout`, exactly the four timeout suggestions and nothing written |
| PortProbe.ErrorOutcome | src/app/api/test-port/route.ts:120-157 | an error first fails the probe with the error's message, its code or UNKNOWN, its syscall or unknown, and the suggestions for its code |
| PortProbe.PlainConnectOutcome | src/app/api/test-port/route.ts:85-117 | on a port other than 25, 587 and 465 a connect succeeds at once: TCP, both endpoints, empty reply and capabilities, nothing written |
| PortProbe.SmtpConnectWaits | src/app/api/test-port/route.ts:91-95 | on an SMTP port a connect writes EHLO and waits for the reply, already marked successful |
| PortProbe.HandshakeBuffers | src/app/api/test-port/route.ts:95-100 | chunks that together hold no CRLF are only appended to the buffer |
| PortProbe.HandshakeCompletes | src/app/api/test-port/route.ts:99-111 | the chunk that brings the first CRLF resolves with the framed lines joined by newline and their capabilities, and changes nothing else |
| PortProbe.NoHandshakeTimeout | src/app/api/test-port/route.ts:76-77 | once connected, timeouts, closes and connects leave a waiting probe pending for ever |
| PortProbe.ErrorAfterConnectKeepsSuccess | src/app/api/test-port/route.ts:120-157 | an error while the reply is awaited resolves with the error's message, its code or UNKNOWN and syscall or unknown, and the suggestions for its code, yet `success` stays true and nothing else changes |
| PortProbe.PartialLineKept | src/app/api/test-port/route.ts:101-102 | the piece after the last CRLF is kept as a line although no CRLF ends it |
| PortProbe.ConnectThenReply | src/app/api/test-port/route.ts:92-110 | on an SMTP port, a connect then a chunk holding a CRLF resolves with that chunk framed and parsed, after writing EHLO |
| PortProbe.SmtpExchangeExample | src/app/api/test-port/route.ts:92-110 | on port 25, the example reply in one chunk reports three newline-joined lines and the capabilities `["OK"]` |
| TestPortApi.Post | src/app/api/test-port/route.ts:211-253 | a refused request gets 400 with no probe; an accepted one gets status 200 and the probe's success, message and details, or no answer while the probe is pending |
| TestPortApi.PresenceBeforeRange | src/app/api/test-port/route.ts:216-222 | a missing or empty host, or a missing or zero port, is "Host and port are required", whatever the port's range |
| TestPortApi.RangeRefusal | src/app/api/test-port/route.ts:225-231 | a present, non-zero port outside 1..65535 is "Invalid port number" |
| TestPortApi.RefusalIndependentOfProbe | src/app/api/test-port/route.ts:216-234 | a refused request never reaches the probe: its answer does not depend on the trace or the public address |
| TestPortApi.StatusTellsAcceptance | src/app/api/test-port/route.ts:216-242 | status 400 means the request was refused and 200 that it was probed |
| Port25Probe.StepInv | src/app/api/test-port25/route.ts:42-112 | every listener keeps the invariant: an armed timer means a live, unconnected socket; success means the connected details and EHLO; a sent response matches its status |
| Port25Probe.RunInv | src/app/api/test-port25/route.ts:42-112 | the invariant holds after any trace |
| Port25Probe.Get | src/app/api/test-port25/route.ts:4-114 | a response has status 200, 408 or 500 with the matching body; the body says success exactly when EHLO was written |
| Port25Probe.RunAppend | src/app/api/test-port25/route.ts:42-112 | running a trace in two parts is running it whole |
| Port25Probe.RunSingle | src/app/api/test-port25/route.ts:42-112 | a one-event trace is one step |
| Port25Probe.SentIsFinal | src/app/api/test-port25/route.ts:8 | once a response is sent, no later event changes it |
| Port25Probe.TimeoutOutcome | src/app/api/test-port25/route.ts:42-49 | a timer firing first answers 408 with the timeout message and the "may be blocked" suggestion |
| Port25Probe.ErrorOutcome | src/app/api/test-port25/route.ts:77-105 | an error first answers 500 with the error's message, code or UNKNOWN, class name, and the advice for its code |
| Port25Probe.LastChunkWins | src/app/api/test-port25/route.ts:67-69 | each chunk overwrites the recorded response and capabilities, so only the last one shows |
| Port25Probe.Connected | src/app/api/test-port25/route.ts:51-65 | a connect replaces the details wholesale with both endpoints, host, port 25 and `TCP Socket`, and writes EHLO |
| Port25Probe.AfterConnect | src/app/api/test-port25/route.ts:51-65 | a trace that starts with a connect continues from the connected probe |
| Port25Probe.ConnectDataClose | src/app/api/test-port25/route.ts:51-112 | connect, chunks, close answers 200 with the connected details and the last chunk trimmed and parsed |
| Port25Probe.CloseAnswers | src/app/api/test-port25/route.ts:107-111 | a close after a successful connect answers 200 with the body as it stands |
| Port25Probe.CloseBeforeConnectHangs | src/app/api/test-port25/route.ts:107-112 | a close without a connect sends nothing, and nothing after it can |
| Port25Probe.ClosedStaysSilent | src/app/api/test-port25/route.ts:107-112 | a closed socket that never connected ignores every later event |
| Port25Probe.ErrorAfterConnect | src/app/api/test-port25/route.ts:51-104 | an error after the connect answers 500 although the body still says success; the details are the connected ones plus the error and the advice for its code |
| Port25Probe.ErrorWhileLive | src/app/api/test-port25/route.ts:77-105 | an error on any live, unanswered socket, before or after connect and after any chunks, answers 500 with the body as it stands, the message replaced, and the error (code or UNKNOWN, message, class name) and its code's suggestion and recommendation added |
| Port25Probe.NoTimeoutAfterConnect | src/app/api/test-port25/route.ts:51-52 | once connected there is no timer: timeouts do nothing |
| Port25Probe.ArmedTimerAnswers | src/app/api/test-port25/route.ts:42-48 | the `!client.destroyed` guard never blocks: an armed timer always finds the socket alive and answers 408 |

## Left out

- Public-IP lookup (ipify, then httpbin): an external HTTP call. The address is an input of `PortProbe.TestConnection` and `TestPortApi.Post`.
- `GET /api/test-port` (route.ts:179-209): a fixed status message around the same IP lookup.
- Response serialisation by `NextResponse`, the `timestamp` and `project` fields (clock and environment).
- Real sockets, the event loop and the `setTimeout` callbacks: they are a trace of events. The port-25 prober's delayed `client.end()` after a chunk appears as the `Close` event that follows.
- Mutation of the generic result object after it was resolved: the model takes a snapshot at the first resolve, which is what the serialised response holds.
- JSON bodies whose `host` is not a string or whose `port` is a string, a fraction, `null`, `NaN` or `false`: the model's request carries an optional string and an optional integer. The coercion of `parseInt(port)` and JavaScript comparisons on other types are therefore not modelled.
- `'Unknown error'` for a thrown value that is not an `Error`: the unreadable request carries its message as given.
- `undefined` socket addresses or ports (`"undefined:undefined"`): endpoints always have an address and a port.
- A second `'connect'`, and events after `'close'`, which Node.js does not emit: both probers ignore them. The `'close'` that follows `destroy()` or an `'error'` comes after the response was sent, so the model lets it change nothing.
- src/app/api/test-email/route.ts, src/app/api/upload/route.ts, src/app/api/ip/route.ts, the media routes, src/lib/db.ts and the React pages are not part of this model: they are glue around nodemailer, cloud storage, `pg` and the UI.

=== FILE: decimal.dfy ===
/** Decimal rendering of integers, as a JavaScript template literal
    (`${port}`) renders an integral Number. */
module Decimal {

  predicate IsDigit(c: char) {
    '0' <= c <= '9'
  }

  function DigitChar(d: nat): (c: char)
    requires d < 10
    ensures IsDigit(c) && c as int - '0' as int == d
  {
    ('0' as int + d) as char
  }

  /** The value of a string of decimal digits, most significant first. */
  function DigitsValue(s: string): nat
    requires forall k :: 0 <= k < |s| ==> IsDigit(s[k])
  {
    if |s| == 0 then 0
    else
      var last := s[|s| - 1];
      assert IsDigit(last);
      DigitsValue(s[..|s| - 1]) * 10 + (last as int - '0' as int)
  }

  /** The shortest decimal numeral of `n`: digits only, no leading zero
      unless `n` is zero, and reading it back gives `n`. */
  function NatToString(n: nat): (s: string)
    ensures |s| >= 1
    ensures forall k :: 0 <= k < |s| ==> IsDigit(s[k])
    ensures s[0] == '0' ==> n == 0 && s == "0"
    ensures DigitsValue(s) == n
  {
    if n < 10 then [DigitChar(n)]
    else
      var s := NatToString(n / 10) + [DigitChar(n % 10)];
      assert s[..|s| - 1] == NatToString(n / 10);
      s
  }

  /** An integer with a leading minus sign when negative, then the
      shortest numeral of its magnitude. */
  function IntToString(i: int): (s: string)
    ensures |s| >= 1
    ensures s[0] == '-' <==> i < 0
    ensures var digits := if i < 0 then s[1..] else s;
      && (forall k :: 0 <= k < |digits| ==> IsDigit(digits[k]))
      && DigitsValue(digits) == (if i < 0 then -i else i)
      && (digits[0] == '0' ==> digits == "0")
  {
    if i < 0 then "-" + NatToString(-i) else NatToString(i)
  }
}

=== FILE: diagnostics.dfy ===
/** How the two probers turn a socket error into advice. Both compare the
    error's `code` with fixed strings; the generic prober knows three codes
    and gives a list of three suggestions, the port-25 prober also knows
    EACCES and gives one suggestion and one recommendation. */
module Diagnostics {
  import opened Wrappers

  /** The socket error codes either prober recognises, and everything else. */
  datatype ErrorKind = ConnectionRefused | HostNotFound | TimedOut | PermissionDenied | Other

  /** `err.code === 'ECONNREFUSED'` and so on; a missing code is `Other`. */
  function Classify(code: Option<string>): (kind: ErrorKind)
    ensures kind == ConnectionRefused <==> code == Some("ECONNREFUSED")
    ensures kind == HostNotFound <==> code == Some("ENOTFOUND")
    ensures kind == TimedOut <==> code == Some("ETIMEDOUT")
    ensures kind == PermissionDenied <==> code == Some("EACCES")
  {
    if code == Some("ECONNREFUSED") then ConnectionRefused
    else if code == Some("ENOTFOUND") then HostNotFound
    else if code == Some("ETIMEDOUT") then TimedOut
    else if code == Some("EACCES") then PermissionDenied
    else Other
  }

  /** `value || fallback` on a string property that may be undefined: the
      value, unless it is missing or empty. */
  function OrElse(value: Option<string>, fallback: string): (r: string)
    requires fallback != ""
    ensures r != ""
    ensures value.Some? && value.value != "" ==> r == value.value
    ensures value.None? || value.value == "" ==> r == fallback
  {
    if value.Some? && value.value != "" then value.value else fallback
  }

  /** `err.code || 'UNKNOWN'`. */
  function ReportedCode(code: Option<string>): string {
    OrElse(code, "UNKNOWN")
  }

  /** `err.syscall || 'unknown'`. */
  function ReportedSyscall(syscall: Option<string>): string {
    OrElse(syscall, "unknown")
  }

  // ----- generic prober -----

  const RefusedSuggestions: seq<string> := [
    "The server is not listening on this port",
    "Check if the service is running",
    "Verify the port number is correct"
  ]

  const NotFoundSuggestions: seq<string> := [
    "Hostname could not be resolved",
    "Check DNS configuration",
    "Verify the hostname is correct"
  ]

  const TimedOutSuggestions: seq<string> := [
    "Connection timed out",
    "Check network connectivity",
    "Verify firewall settings"
  ]

  const GeneralSuggestions: seq<string> := [
    "Check network connectivity",
    "Verify host and port are correct",
    "Check firewall and security settings"
  ]

  /** The generic prober's table: three codes have their own list, and every
      other code, EACCES and a missing code included, gets the general list.
      Every list has three entries. */
  function Suggestions(code: Option<string>): (s: seq<string>)
    ensures |s| == 3
    ensures s == GeneralSuggestions <==> Classify(code) in {PermissionDenied, Other}
  {
    match Classify(code)
    case ConnectionRefused => RefusedSuggestions
    case HostNotFound => NotFoundSuggestions
    case TimedOut => TimedOutSuggestions
    case _ => GeneralSuggestions
  }

  /** The error kinds the generic prober can tell apart. */
  function GenericBucket(kind: ErrorKind): ErrorKind {
    if kind == PermissionDenied then Other else kind
  }

  /** Two codes get the same suggestions exactly when the generic prober
      does not tell them apart. */
  lemma SuggestionsSeparateKinds(c1: Option<string>, c2: Option<string>)
    ensures Suggestions(c1) == Suggestions(c2) <==> GenericBucket(Classify(c1)) == GenericBucket(Classify(c2))
  {
    assert RefusedSuggestions[0] != NotFoundSuggestions[0];
    assert RefusedSuggestions[0] != TimedOutSuggestions[0];
    assert RefusedSuggestions[0] != GeneralSuggestions[0];
    assert NotFoundSuggestions[0] != TimedOutSuggestions[0];
    assert NotFoundSuggestions[0] != GeneralSuggestions[0];
    assert TimedOutSuggestions[0] != GeneralSuggestions[0];
  }

  // ----- port-25 prober -----

  /** The `suggestion` and `recommendation` the port-25 prober reports. */
  datatype Advice = Advice(suggestion: string, recommendation: string)

  const RefusedAdvice := Advice(
    "Port 25 is blocked or not accessible. Try using port 587 or 465 instead.",
    "Use STARTTLS (port 587) or SSL/TLS (port 465) for Office 365")
  const TimedOutAdvice := Advice(
    "Connection timeout - check firewall rules and network policies",
    "Verify VPC firewall rules and Cloud NAT configuration")
  const NotFoundAdvice := Advice(
    "Host not found - check DNS resolution",
    "Verify DNS settings and network connectivity")
  const PermissionAdvice := Advice(
    "Permission denied - check security policies",
    "Verify IAM permissions and security policies")
  const UnknownAdvice := Advice(
    "Unknown connection error - check network configuration",
    "Review network settings and try alternative ports")

  /** The port-25 prober's table: four codes have their own pair, every
      other code gets the "Unknown connection error" pair. */
  function Port25Advice(code: Option<string>): (a: Advice)
    ensures a == UnknownAdvice <==> Classify(code) == Other
  {
    match Classify(code)
    case ConnectionRefused => RefusedAdvice
    case TimedOut => TimedOutAdvice
    case HostNotFound => NotFoundAdvice
    case PermissionDenied => PermissionAdvice
    case Other => UnknownAdvice
  }

  /** Two codes get the same advice exactly when they are of the same kind. */
  lemma Port25AdviceSeparatesKinds(c1: Option<string>, c2: Option<string>)
    ensures Port25Advice(c1) == Port25Advice(c2) <==> Classify(c1) == Classify(c2)
  {
    assert RefusedAdvice.suggestion != PermissionAdvice.suggestion;
    assert RefusedAdvice.suggestion != TimedOutAdvice.suggestion;
    assert RefusedAdvice.suggestion != NotFoundAdvice.suggestion;
    assert RefusedAdvice.suggestion != UnknownAdvice.suggestion;
    assert TimedOutAdvice.suggestion != NotFoundAdvice.suggestion;
    assert TimedOutAdvice.suggestion != PermissionAdvice.suggestion;
    assert TimedOutAdvice.suggestion != UnknownAdvice.suggestion;
    assert NotFoundAdvice.suggestion != PermissionAdvice.suggestion;
    assert NotFoundAdvice.suggestion != UnknownAdvice.suggestion;
    assert PermissionAdvice.suggestion != UnknownAdvice.suggestion;
  }

  /** Only the port-25 prober has advice of its own for EACCES; the generic
      one treats it like a missing code. */
  lemma OnlyPort25KnowsEacces()
    ensures Suggestions(Some("EACCES")) == Suggestions(None)
    ensures Port25Advice(Some("EACCES")) != Port25Advice(None)
  {
    Port25AdviceSeparatesKinds(Some("EACCES"), None);
  }
}

=== FILE: port25_probe.dfy ===
/** `GET` of the port-25 prober: connect to one fixed Office 365 mail
    host on port 25, send EHLO, record each reply chunk, and answer with an
    HTTP status chosen by how the socket ends: 408 for the timer, 500 for an
    error, 200 for a close after a successful connect. The socket and timer
    are a trace of events; the first response sent is the outcome. */
module Port25Probe {
  import opened Wrappers
  import opened Text
  import Smtp
  import Diagnostics
  import opened SocketEvents

  const Host: string := "scasset-com.mail.protection.outlook.com"
  const Port: int := 25
  const EhloCommand: string := "EHLO test.example.com\r\n"
  const TimeoutMessage: string := "Connection timeout after 10 seconds"
  const TimeoutSuggestion: string := "Port 25 may be blocked by Google Cloud or network policies"
  const ConnectedMessage: string := "Port 25 connection successful!"
  const FailurePrefix: string := "Port 25 connection failed: "

  /** `details.error`: the code (UNKNOWN when missing), message and the
      error's class name. */
  datatype ErrorInfo = ErrorInfo(code: string, message: string, typeName: string)

  /** `details`, every field of which is optional and absent at first. */
  datatype Details = Details(
    localAddress: Option<string>,
    remoteAddress: Option<string>,
    host: Option<string>,
    port: Option<int>,
    connectionType: Option<string>,
    serverResponse: Option<string>,
    smtpCapabilities: Option<Smtp.Greeting>,
    error: Option<ErrorInfo>,
    suggestion: Option<string>,
    recommendation: Option<string>)

  const NoDetails: Details := Details(None, None, None, None, None, None, None, None, None, None)

  /** The JSON body, leaving out the timestamp and project fields. */
  datatype Body = Body(success: bool, message: string, details: Details)

  /** A response sent: its HTTP status and the body as it stood then. */
  datatype Reply = Reply(status: int, body: Body)

  /** The body being built, whether the timer is still armed, whether the
      socket has been destroyed, what was written to it, and the response
      once one has been sent. */
  datatype Probe = Probe(body: Body, timerArmed: bool, destroyed: bool, written: seq<string>, reply: Option<Reply>)

  const Start: Probe := Probe(Body(false, "", NoDetails), true, false, [], None)

  /** The details the `'connect'` callback puts in place of the old ones. */
  function ConnectedDetails(local: Endpoint, remote: Endpoint): Details {
    Details(Some(FormatEndpoint(local)), Some(FormatEndpoint(remote)), Some(Host), Some(Port),
            Some("TCP Socket"), None, None, None, None, None)
  }

  /** What the `'data'` listener records of one chunk: the chunk trimmed,
      and the chunk parsed as a greeting. */
  function WithChunk(d: Details, chunk: string): Details {
    d.(serverResponse := Some(Trim(chunk)), smtpCapabilities := Some(Smtp.ParseGreeting(chunk)))
  }

  /** What the `'error'` listener writes into the details. */
  function WithError(d: Details, err: SocketError): Details {
    var advice := Diagnostics.Port25Advice(err.code);
    d.(error := Some(ErrorInfo(Diagnostics.ReportedCode(err.code), err.message, err.typeName)),
       suggestion := Some(advice.suggestion),
       recommendation := Some(advice.recommendation))
  }

  /** One event. Once a response is sent, or the socket has closed, later
      events change nothing (the `'close'` after `destroy()` comes after the
      response), and `'connect'` comes at most once. The timer only acts
      while armed and the socket is not destroyed; `'connect'`, `'error'`
      and `'close'` disarm it. The delayed `client.end()` after a chunk
      shows up as the `Close` that follows. */
  function Step(p: Probe, e: Event): Probe {
    if p.reply.Some? then p
    else
      match e
      case Timeout =>
        if !p.timerArmed then p
        else if p.destroyed then p.(timerArmed := false)
        else
          var b := p.body.(message := TimeoutMessage, details := p.body.details.(suggestion := Some(TimeoutSuggestion)));
          Probe(b, false, true, p.written, Some(Reply(408, b)))
      case Connect(local, remote) =>
        if p.destroyed || p.body.success then p
        else
          var b := Body(true, ConnectedMessage, ConnectedDetails(local, remote));
          Probe(b, false, false, p.written + [EhloCommand], None)
      case Data(chunk) =>
        if p.destroyed then p
        else p.(body := p.body.(details := WithChunk(p.body.details, chunk)))
      case Error(err) =>
        if p.destroyed then p
        else
          var b := p.body.(message := FailurePrefix + err.message, details := WithError(p.body.details, err));
          Probe(b, false, true, p.written, Some(Reply(500, b)))
      case Close =>
        if p.destroyed then p
        else if p.body.success then Probe(p.body, false, true, p.written, Some(Reply(200, p.body)))
        else p.(timerArmed := false, destroyed := true)
  }

  function Run(p: Probe, events: seq<Event>): Probe
    decreases |events|
  {
    if |events| == 0 then p else Run(Step(p, events[0]), events[1..])
  }

  /** The state every reachable probe is in. */
  predicate Inv(p: Probe) {
    var b := p.body;
    var d := b.details;
    && (p.timerArmed ==> !p.destroyed && !b.success)
    && (b.success ==>
          && p.written == [EhloCommand]
          && d.host == Some(Host) && d.port == Some(Port) && d.connectionType == Some("TCP Socket")
          && d.localAddress.Some? && d.remoteAddress.Some?)
    && (!b.success ==> p.written == [] && d.host.None? && d.connectionType.None?)
    && (p.reply.None? ==> d.error.None? && d.suggestion.None?)
    && (p.reply.None? && !b.success ==> b.message == "")
    && (p.reply.None? && b.success ==> b.message == ConnectedMessage)
    && (p.reply.Some? ==> p.reply.value.body == b && p.destroyed && !p.timerArmed && IsResponse(p.reply.value))
  }

  /** What each status says about the body sent with it. */
  predicate IsResponse(r: Reply) {
    var b := r.body;
    match r.status
    case 200 => b.success && b.message == ConnectedMessage && b.details.error.None?
    case 408 =>
      && !b.success && b.message == TimeoutMessage
      && b.details.suggestion == Some(TimeoutSuggestion) && b.details.error.None?
    case 500 =>
      && StartsWith(b.message, FailurePrefix)
      && b.details.error.Some? && b.details.suggestion.Some? && b.details.recommendation.Some?
    case _ => false
  }

  lemma StepInv(p: Probe, e: Event)
    requires Inv(p)
    ensures Inv(Step(p, e))
  {
    if p.reply.None? && e.Error? && !p.destroyed {
      var b := Step(p, e).body;
      assert b.message == FailurePrefix + e.err.message;
      assert StartsWith(b.message, FailurePrefix);
    }
  }

  lemma {:induction false} RunInv(p: Probe, events: seq<Event>)
    requires Inv(p)
    ensures Inv(Run(p, events))
    decreases |events|
  {
    if |events| > 0 {
      StepInv(p, events[0]);
      RunInv(Step(p, events[0]), events[1..]);
    }
  }

  /** What `GET` answered (None: no response yet) and what it wrote. */
  datatype Outcome = Outcome(reply: Option<Reply>, written: seq<string>)

  /** `GET()` over the event trace `events`. A response has status 200,
      408 or 500; 200 only after a connect; 408 only without one; EHLO is
      written exactly when the connection was made. */
  function Get(events: seq<Event>): (o: Outcome)
    ensures o.reply.Some? ==> o.reply.value.status in {200, 408, 500} && IsResponse(o.reply.value)
    ensures o.reply.Some? ==> (o.reply.value.body.success <==> o.written == [EhloCommand])
    ensures o.written == [] || o.written == [EhloCommand]
  {
    var p := Run(Start, events);
    RunInv(Start, events);
    Outcome(p.reply, p.written)
  }

  // ----- how the trace decides -----

  lemma {:induction false} RunAppend(p: Probe, a: seq<Event>, b: seq<Event>)
    ensures Run(p, a + b) == Run(Run(p, a), b)
    decreases |a|
  {
    if |a| == 0 {
      assert a + b == b;
    } else {
      assert (a + b)[0] == a[0] && (a + b)[1..] == a[1..] + b;
      RunAppend(Step(p, a[0]), a[1..], b);
    }
  }

  lemma RunSingle(p: Probe, e: Event)
    ensures Run(p, [e]) == Step(p, e)
  {
    assert [e][1..] == [];
  }

  /** The first response sent is the one the client gets. */
  lemma {:induction false} SentIsFinal(p: Probe, events: seq<Event>)
    requires p.reply.Some?
    ensures Run(p, events) == p
    decreases |events|
  {
    if |events| > 0 {
      SentIsFinal(Step(p, events[0]), events[1..]);
    }
  }

  /** The timer fires first: 408 with the "may be blocked" suggestion. */
  lemma TimeoutOutcome(rest: seq<Event>)
    ensures Get([Timeout] + rest).reply
      == Some(Reply(408, Body(false, TimeoutMessage, NoDetails.(suggestion := Some(TimeoutSuggestion)))))
  {
    RunAppend(Start, [Timeout], rest);
    RunSingle(Start, Timeout);
    SentIsFinal(Step(Start, Timeout), rest);
  }

  /** The socket fails before connecting: 500, the error's message after
      "Port 25 connection failed: ", its code (or UNKNOWN) and class, and
      the advice for its code. */
  lemma ErrorOutcome(err: SocketError, rest: seq<Event>)
    ensures var b := Body(false, FailurePrefix + err.message, WithError(NoDetails, err));
      Get([Error(err)] + rest).reply == Some(Reply(500, b))
    ensures Get([Error(err)] + rest).reply.value.body.details.error
      == Some(ErrorInfo(Diagnostics.ReportedCode(err.code), err.message, err.typeName))
  {
    RunAppend(Start, [Error(err)], rest);
    RunSingle(Start, Error(err));
    SentIsFinal(Step(Start, Error(err)), rest);
  }

  /** Each chunk overwrites the recorded response and capabilities: after a
      run of chunks only the last one shows. */
  lemma {:induction false} LastChunkWins(p: Probe, chunks: seq<string>)
    requires p.reply.None? && !p.destroyed && |chunks| > 0
    ensures Run(p, DataEvents(chunks)) == p.(body := p.body.(details := WithChunk(p.body.details, chunks[|chunks| - 1])))
    decreases |chunks|
  {
    var q := Step(p, Data(chunks[0]));
    assert DataEvents(chunks)[0] == Data(chunks[0]);
    assert DataEvents(chunks)[1..] == DataEvents(chunks[1..]);
    if |chunks| > 1 {
      LastChunkWins(q, chunks[1..]);
      assert chunks[1..][|chunks[1..]| - 1] == chunks[|chunks| - 1];
    } else {
      assert DataEvents(chunks[1..]) == [];
    }
  }

  /** Connect, some chunks, close: 200 with the connected details and, when
      any chunk came, the last chunk trimmed and parsed. */
  lemma ConnectDataClose(local: Endpoint, remote: Endpoint, chunks: seq<string>, rest: seq<Event>)
    requires |chunks| > 0
    ensures var last := chunks[|chunks| - 1];
      var d := ConnectedDetails(local, remote).(serverResponse := Some(Trim(last)),
                                                 smtpCapabilities := Some(Smtp.ParseGreeting(last)));
      Get([Connect(local, remote)] + (DataEvents(chunks) + ([Close] + rest))).reply
        == Some(Reply(200, Body(true, ConnectedMessage, d)))
  {
    var c := Connected(local, remote);
    var tail := [Close] + rest;
    var events := [Connect(local, remote)] + (DataEvents(chunks) + tail);
    AfterConnect(local, remote, DataEvents(chunks) + tail);
    RunAppend(c, DataEvents(chunks), tail);
    LastChunkWins(c, chunks);
    var q := Run(c, DataEvents(chunks));
    var last := chunks[|chunks| - 1];
    assert q.body == Body(true, ConnectedMessage, WithChunk(ConnectedDetails(local, remote), last));
    CloseAnswers(q, rest);
    assert Run(Start, events) == Run(q, tail);
    assert Run(Start, events).reply == Some(Reply(200, q.body));
  }

  lemma AfterConnect(local: Endpoint, remote: Endpoint, events: seq<Event>)
    ensures Run(Start, [Connect(local, remote)] + events) == Run(Connected(local, remote), events)
  {
    RunAppend(Start, [Connect(local, remote)], events);
    RunSingle(Start, Connect(local, remote));
  }

  /** The probe just after a connect. */
  function Connected(local: Endpoint, remote: Endpoint): (c: Probe)
    ensures c == Step(Start, Connect(local, remote))
  {
    Probe(Body(true, ConnectedMessage, ConnectedDetails(local, remote)), false, false, [EhloCommand], None)
  }

  /** A close on a connected, unanswered probe answers 200 with the body
      as it stands. */
  lemma CloseAnswers(q: Probe, rest: seq<Event>)
    requires q.reply.None? && !q.destroyed && q.body.success
    ensures Run(q, [Close] + rest).reply == Some(Reply(200, q.body))
  {
    RunAppend(q, [Close], rest);
    RunSingle(q, Close);
    SentIsFinal(Step(q, Close), rest);
  }

  /** Without a connect a close sends nothing, and nothing after it can:
      the request stays unanswered. */
  lemma CloseBeforeConnectHangs(rest: seq<Event>)
    ensures Get([Close] + rest).reply.None?
  {
    RunAppend(Start, [Close], rest);
    RunSingle(Start, Close);
    ClosedStaysSilent(Step(Start, Close), rest);
  }

  lemma {:induction false} ClosedStaysSilent(p: Probe, events: seq<Event>)
    requires p.reply.None? && p.destroyed && !p.timerArmed && !p.body.success
    ensures Run(p, events) == p
    decreases |events|
  {
    if |events| > 0 {
      ClosedStaysSilent(Step(p, events[0]), events[1..]);
    }
  }

  /** An error after the connect is answered with 500 although the body
      still says success. */
  lemma ErrorAfterConnect(local: Endpoint, remote: Endpoint, err: SocketError, rest: seq<Event>)
    ensures var r := Get([Connect(local, remote)] + ([Error(err)] + rest)).reply;
      && r.Some? && r.value.status == 500
      && r.value.body.success
      && r.value.body.message == FailurePrefix + err.message
      && r.value.body.details.host == Some(Host)
      && r.value.body.details == WithError(ConnectedDetails(local, remote), err)
  {
    AfterConnect(local, remote, [Error(err)] + rest);
    var c := Connected(local, remote);
    RunAppend(c, [Error(err)], rest);
    RunSingle(c, Error(err));
    SentIsFinal(Step(c, Error(err)), rest);
  }

  /** An error on a live socket that has not been answered, connected or
      not and after any chunks, answers 500 with the body as it stands, the
      message replaced and the error and the advice for its code added. */
  lemma ErrorWhileLive(p: Probe, err: SocketError, rest: seq<Event>)
    requires p.reply.None? && !p.destroyed
    ensures Run(p, [Error(err)] + rest).reply == Some(Reply(500, p.body.(
      message := FailurePrefix + err.message,
      details := p.body.details.(
        error := Some(ErrorInfo(Diagnostics.ReportedCode(err.code), err.message, err.typeName)),
        suggestion := Some(Diagnostics.Port25Advice(err.code).suggestion),
        recommendation := Some(Diagnostics.Port25Advice(err.code).recommendation)))))
  {
    RunAppend(p, [Error(err)], rest);
    RunSingle(p, Error(err));
    SentIsFinal(Step(p, Error(err)), rest);
  }

  /** Once connected there is no timer: a timeout does nothing, and a
      connection the server never closes is never answered. */
  lemma {:induction false} NoTimeoutAfterConnect(p: Probe, events: seq<Event>)
    requires Inv(p) && p.reply.None? && p.body.success && !p.destroyed
    requires forall k :: 0 <= k < |events| ==> events[k].Timeout? || events[k].Connect?
    ensures Run(p, events) == p
    decreases |events|
  {
    if |events| > 0 {
      assert forall k :: 0 <= k < |events[1..]| ==> events[1..][k] == events[k + 1];
      NoTimeoutAfterConnect(p, events[1..]);
    }
  }

  /** The `!client.destroyed` guard never decides anything: every timer
      that is still armed finds the socket alive, and firing it sends 408. */
  lemma ArmedTimerAnswers(p: Probe)
    requires Inv(p) && p.reply.None? && p.timerArmed
    ensures Step(p, Timeout).reply.Some? && Step(p, Timeout).reply.value.status == 408
  {
  }
}

=== FILE: port_probe.dfy ===
/** `testConnection(host, port)` of the generic prober: open a TCP
    connection, and on the SMTP ports send EHLO and parse the reply. The
    socket and the 10-second timer are a trace of events; the probe settles
    at the first `resolve`, and what it settled with is the outcome. */
module PortProbe {
  import opened Wrappers
  import opened Text
  import Decimal
  import Smtp
  import SmtpExamples
  import Diagnostics
  import opened SocketEvents

  /** `errorDetails` of a failed probe. */
  datatype ErrorDetails = ErrorDetails(code: string, message: string, syscall: string)

  datatype Details = Details(
    host: string,
    port: int,
    myIPAddress: string,
    localAddress: string,
    remoteAddress: string,
    connectionType: string,
    serverResponse: string,
    smtpCapabilities: seq<string>,
    errorDetails: Option<ErrorDetails>,
    suggestions: seq<string>)

  datatype TestResult = TestResult(success: bool, message: string, details: Details)

  const EhloCommand: string := "EHLO test.com\r\n"

  const TimeoutMessage: string := "Connection timeout"

  const TimeoutSuggestions: seq<string> := [
    "Check if the host is reachable",
    "Verify the port is open and accessible",
    "Check firewall settings",
    "Try a different port (587, 465 for SMTP)"
  ]

  const FailurePrefix: string := "Connection failed: "

  /** The ports on which the probe speaks SMTP. */
  predicate IsSmtpPort(port: int) {
    port == 25 || port == 587 || port == 465
  }

  /** The result before any event: failed, empty, with the public address
      `ip` looked up beforehand. */
  function Fresh(host: string, port: int, ip: string): TestResult {
    TestResult(false, "", Details(host, port, ip, "", "", "", "", [], None, []))
  }

  /** What the timer callback writes into the result. */
  function OnTimeout(r: TestResult): TestResult {
    r.(message := TimeoutMessage, details := r.details.(suggestions := TimeoutSuggestions))
  }

  /** What the `'connect'` listener writes into the result. */
  function OnConnect(r: TestResult, local: Endpoint, remote: Endpoint): TestResult {
    r.(success := true,
       message := "Successfully connected to " + r.details.host + ":" + Decimal.IntToString(r.details.port),
       details := r.details.(
         localAddress := FormatEndpoint(local),
         remoteAddress := FormatEndpoint(remote),
         connectionType := "TCP"))
  }

  /** What the `'data'` listener writes once the reply holds a CRLF. */
  function OnReply(r: TestResult, response: string): TestResult {
    var lines := Smtp.ReplyLines(response);
    r.(details := r.details.(serverResponse := Join(lines, "\n"), smtpCapabilities := Smtp.ParseCapabilities(lines)))
  }

  /** What the `'error'` listener writes into the result. */
  function OnError(r: TestResult, err: SocketError): TestResult {
    r.(message := FailurePrefix + err.message,
       details := r.details.(
         errorDetails := Some(ErrorDetails(
           Diagnostics.ReportedCode(err.code), err.message, Diagnostics.ReportedSyscall(err.syscall))),
         suggestions := Diagnostics.Suggestions(err.code)))
  }

  /** Waiting for the connection (timer armed), waiting for a complete EHLO
      reply (timer cleared, `response` read so far), or resolved. */
  datatype Phase = Connecting | Handshaking(response: string) | Settled

  /** The probe's state: the result object, the phase, and what has been
      written to the socket. */
  datatype Probe = Probe(result: TestResult, phase: Phase, written: seq<string>)

  function Start(host: string, port: int, ip: string): Probe {
    Probe(Fresh(host, port, ip), Connecting, [])
  }

  /** One event. Before the connection only the timer, `'connect'` and
      `'error'` have listeners; `'connect'` clears the timer, so while the
      reply is awaited only `'data'` and `'error'` do anything. Once
      resolved, nothing changes the outcome. */
  function Step(p: Probe, e: Event): Probe {
    match p.phase
    case Settled => p
    case Connecting =>
      (match e
       case Timeout => Probe(OnTimeout(p.result), Settled, p.written)
       case Connect(local, remote) =>
         var r := OnConnect(p.result, local, remote);
         if IsSmtpPort(r.details.port) then Probe(r, Handshaking(""), p.written + [EhloCommand])
         else Probe(r, Settled, p.written)
       case Error(err) => Probe(OnError(p.result, err), Settled, p.written)
       case _ => p)
    case Handshaking(response) =>
      match e
      case Data(chunk) =>
        var buffer := response + chunk;
        if IncludesCrlf(buffer) then Probe(OnReply(p.result, buffer), Settled, p.written)
        else p.(phase := Handshaking(buffer))
      case Error(err) => Probe(OnError(p.result, err), Settled, p.written)
      case _ => p
  }

  function Run(p: Probe, events: seq<Event>): Probe
    decreases |events|
  {
    if |events| == 0 then p else Run(Step(p, events[0]), events[1..])
  }

  /** What the probe resolved with (None: still pending), and what it wrote. */
  datatype Outcome = Outcome(reply: Option<TestResult>, written: seq<string>)

  /** The state every reachable probe is in. */
  predicate Inv(host: string, port: int, ip: string, p: Probe) {
    var r := p.result;
    var d := r.details;
    && d.host == host && d.port == port && d.myIPAddress == ip
    && (p.phase.Connecting? ==> r == Fresh(host, port, ip) && p.written == [])
    && (p.phase.Handshaking? ==> r.success && IsSmtpPort(port))
    && (r.success ==>
          && d.connectionType == "TCP"
          && p.written == (if IsSmtpPort(port) then [EhloCommand] else []))
    && (!r.success ==>
          && p.written == [] && d.connectionType == "" && d.localAddress == "" && d.remoteAddress == ""
          && d.serverResponse == "" && d.smtpCapabilities == [])
    && (p.phase.Settled? && !r.success ==> IsFailure(r))
    && (!IsSmtpPort(port) ==> d.serverResponse == "" && d.smtpCapabilities == [])
    && (forall k :: 0 <= k < |d.smtpCapabilities| ==> Smtp.IsCapabilityToken(d.smtpCapabilities[k]))
  }

  /** How a failed probe reads: the timeout with its four suggestions, or a
      socket error with its three. */
  predicate IsFailure(r: TestResult) {
    || (r.message == TimeoutMessage && r.details.errorDetails.None? && r.details.suggestions == TimeoutSuggestions)
    || (StartsWith(r.message, FailurePrefix) && r.details.errorDetails.Some? && |r.details.suggestions| == 3)
  }

  lemma StepInv(host: string, port: int, ip: string, p: Probe, e: Event)
    requires Inv(host, port, ip, p)
    ensures Inv(host, port, ip, Step(p, e))
  {
    match p.phase
    case Settled =>
    case Connecting =>
      if e.Error? {
        ErrorInv(host, port, ip, p, e.err);
      } else if e.Connect? {
        ConnectInv(host, port, ip, p, e.local, e.remote);
      }
    case Handshaking(response) =>
      if e.Error? {
        ErrorInv(host, port, ip, p, e.err);
      } else if e.Data? {
        DataInv(host, port, ip, p, e.chunk);
      }
  }

  lemma ConnectInv(host: string, port: int, ip: string, p: Probe, local: Endpoint, remote: Endpoint)
    requires Inv(host, port, ip, p) && p.phase.Connecting?
    ensures Inv(host, port, ip, Step(p, Connect(local, remote)))
  {
  }

  lemma ErrorInv(host: string, port: int, ip: string, p: Probe, err: SocketError)
    requires Inv(host, port, ip, p) && !p.phase.Settled?
    ensures Inv(host, port, ip, Step(p, Error(err)))
  {
    var q := Step(p, Error(err));
    assert q.result.message == FailurePrefix + err.message;
    assert StartsWith(q.result.message, FailurePrefix);
  }

  lemma DataInv(host: string, port: int, ip: string, p: Probe, chunk: string)
    requires Inv(host, port, ip, p) && p.phase.Handshaking?
    ensures Inv(host, port, ip, Step(p, Data(chunk)))
  {
    var q := Step(p, Data(chunk));
    if q.phase.Settled? {
      var lines := Smtp.ReplyLines(p.phase.response + chunk);
      assert q.result.details.smtpCapabilities == Smtp.ParseCapabilities(lines);
    }
  }

  lemma {:induction false} RunInv(host: string, port: int, ip: string, p: Probe, events: seq<Event>)
    requires Inv(host, port, ip, p)
    ensures Inv(host, port, ip, Run(p, events))
    decreases |events|
  {
    if |events| > 0 {
      StepInv(host, port, ip, p, events[0]);
      RunInv(host, port, ip, Step(p, events[0]), events[1..]);
    }
  }

  /** `testConnection(host, port)` over the event trace `events`, with the
      public address `ip` already looked up. Whatever happens, the result
      names the probed host and port; a success was a connection (TCP, EHLO
      written exactly on the SMTP ports); a failure wrote nothing and is the
      timeout or a socket error; capabilities are only reported on SMTP
      ports and are single tokens. */
  function TestConnection(host: string, port: int, ip: string, events: seq<Event>): (o: Outcome)
    ensures o.reply.Some? ==>
      var r := o.reply.value;
      && r.details.host == host && r.details.port == port && r.details.myIPAddress == ip
      && (r.success ==> r.details.connectionType == "TCP" && o.written == (if IsSmtpPort(port) then [EhloCommand] else []))
      && (!r.success ==> o.written == [] && r.details.connectionType == "" && IsFailure(r))
      && (!IsSmtpPort(port) ==> r.details.serverResponse == "" && r.details.smtpCapabilities == [])
      && (forall k :: 0 <= k < |r.details.smtpCapabilities| ==> Smtp.IsCapabilityToken(r.details.smtpCapabilities[k]))
    ensures o.written == [] || o.written == [EhloCommand]
  {
    var p := Run(Start(host, port, ip), events);
    RunInv(host, port, ip, Start(host, port, ip), events);
    Outcome(if p.phase.Settled? then Some(p.result) else None, p.written)
  }

  // ----- how the trace decides -----

  lemma {:induction false} RunAppend(p: Probe, a: seq<Event>, b: seq<Event>)
    ensures Run(p, a + b) == Run(Run(p, a), b)
    decreases |a|
  {
    if |a| == 0 {
      assert a + b == b;
    } else {
      assert (a + b)[0] == a[0] && (a + b)[1..] == a[1..] + b;
      RunAppend(Step(p, a[0]), a[1..], b);
    }
  }

  /** First resolve wins: once settled, later events change nothing. */
  lemma {:induction false} SettledIsFinal(p: Probe, events: seq<Event>)
    requires p.phase.Settled?
    ensures Run(p, events) == p
    decreases |events|
  {
    if |events| > 0 {
      SettledIsFinal(Step(p, events[0]), events[1..]);
    }
  }

  /** Events nobody listens for before the connection. */
  predicate Quiet(events: seq<Event>) {
    forall k :: 0 <= k < |events| ==> events[k].Data? || events[k].Close?
  }

  lemma {:induction false} QuietWhileConnecting(p: Probe, idle: seq<Event>)
    requires p.phase.Connecting? && Quiet(idle)
    ensures Run(p, idle) == p
    decreases |idle|
  {
    if |idle| > 0 {
      assert Quiet(idle[1..]) by {
        forall k | 0 <= k < |idle[1..]| ensures idle[1..][k].Data? || idle[1..][k].Close? {
          assert idle[1..][k] == idle[k + 1];
        }
      }
      QuietWhileConnecting(p, idle[1..]);
    }
  }

  /** The probe's fate is decided by its first `Timeout`, `Connect` or
      `Error`: whatever came before it changes nothing, whatever comes
      after a resolution changes nothing. */
  lemma FirstDecisiveEvent(host: string, port: int, ip: string, idle: seq<Event>, e: Event, rest: seq<Event>)
    requires Quiet(idle)
    ensures Run(Start(host, port, ip), idle + [e] + rest) == Run(Step(Start(host, port, ip), e), rest)
  {
    var s := Start(host, port, ip);
    RunAppend(s, idle + [e], rest);
    RunAppend(s, idle, [e]);
    QuietWhileConnecting(s, idle);
    assert Run(s, [e]) == Step(s, e) by {
      assert [e][1..] == [];
    }
    assert Run(Run(s, idle), [e]) == Step(s, e);
  }

  /** The timer fires before connect or error: the probe fails with
      "Connection timeout" and exactly the four timeout suggestions. */
  lemma TimeoutOutcome(host: string, port: int, ip: string, idle: seq<Event>, rest: seq<Event>)
    requires Quiet(idle)
    ensures var o := TestConnection(host, port, ip, idle + [Timeout] + rest);
      && o.reply == Some(TestResult(false, TimeoutMessage, Fresh(host, port, ip).details.(suggestions := TimeoutSuggestions)))
      && o.written == []
      && |o.reply.value.details.suggestions| == 4
  {
    FirstDecisiveEvent(host, port, ip, idle, Timeout, rest);
    SettledIsFinal(Step(Start(host, port, ip), Timeout), rest);
  }

  /** The socket fails before connecting: the probe fails with the error's
      message after "Connection failed: ", its code (or UNKNOWN), its
      syscall (or unknown), and the suggestions for its code. */
  lemma ErrorOutcome(host: string, port: int, ip: string, idle: seq<Event>, err: SocketError, rest: seq<Event>)
    requires Quiet(idle)
    ensures var o := TestConnection(host, port, ip, idle + [Error(err)] + rest);
      && o.reply.Some? && !o.reply.value.success
      && o.reply.value.message == FailurePrefix + err.message
      && o.reply.value.details.errorDetails == Some(ErrorDetails(
           Diagnostics.ReportedCode(err.code), err.message, Diagnostics.ReportedSyscall(err.syscall)))
      && o.reply.value.details.suggestions == Diagnostics.Suggestions(err.code)
      && o.reply.value.details.localAddress == ""
      && o.written == []
  {
    FirstDecisiveEvent(host, port, ip, idle, Error(err), rest);
    SettledIsFinal(Step(Start(host, port, ip), Error(err)), rest);
  }

  /** On a port other than 25, 587 and 465 the probe resolves as soon as it
      connects: success, TCP, the two endpoints, and no SMTP exchange. */
  lemma PlainConnectOutcome(host: string, port: int, ip: string, idle: seq<Event>, local: Endpoint, remote: Endpoint, rest: seq<Event>)
    requires Quiet(idle) && !IsSmtpPort(port)
    ensures var o := TestConnection(host, port, ip, idle + [Connect(local, remote)] + rest);
      && o.reply.Some? && o.reply.value.success
      && o.reply.value.message == "Successfully connected to " + host + ":" + Decimal.IntToString(port)
      && o.reply.value.details.localAddress == FormatEndpoint(local)
      && o.reply.value.details.remoteAddress == FormatEndpoint(remote)
      && o.reply.value.details.connectionType == "TCP"
      && o.reply.value.details.serverResponse == ""
      && o.reply.value.details.smtpCapabilities == []
      && o.reply.value.details.errorDetails.None?
      && o.written == []
  {
    FirstDecisiveEvent(host, port, ip, idle, Connect(local, remote), rest);
    SettledIsFinal(Step(Start(host, port, ip), Connect(local, remote)), rest);
  }

  /** On an SMTP port a connection sends EHLO and waits for the reply, with
      the result already marked successful. */
  lemma SmtpConnectWaits(host: string, port: int, ip: string, idle: seq<Event>, local: Endpoint, remote: Endpoint)
    requires Quiet(idle) && IsSmtpPort(port)
    ensures var p := Run(Start(host, port, ip), idle + [Connect(local, remote)]);
      && p.phase == Handshaking("")
      && p.written == [EhloCommand]
      && p.result.success && p.result.details.connectionType == "TCP"
      && TestConnection(host, port, ip, idle + [Connect(local, remote)]).reply.None?
  {
    var s := Start(host, port, ip);
    FirstDecisiveEvent(host, port, ip, idle, Connect(local, remote), []);
    assert idle + [Connect(local, remote)] + [] == idle + [Connect(local, remote)];
  }

  // ----- the handshake -----

  /** Chunks that together still hold no CRLF are only buffered. */
  lemma {:induction false} HandshakeBuffers(p: Probe, chunks: seq<string>)
    requires p.phase.Handshaking?
    requires !IncludesCrlf(p.phase.response + Concat(chunks))
    ensures Run(p, DataEvents(chunks)) == p.(phase := Handshaking(p.phase.response + Concat(chunks)))
    decreases |chunks|
  {
    var buf := p.phase.response;
    if |chunks| == 0 {
      assert buf + Concat(chunks) == buf;
    } else {
      var c := chunks[0];
      assert buf + Concat(chunks) == (buf + c) + Concat(chunks[1..]);
      if IncludesCrlf(buf + c) {
        IncludesCrlfExtend(buf + c, Concat(chunks[1..]));
      }
      var q := Step(p, Data(c));
      assert q == p.(phase := Handshaking(buf + c));
      assert DataEvents(chunks)[1..] == DataEvents(chunks[1..]);
      HandshakeBuffers(q, chunks[1..]);
    }
  }

  /** The chunk that brings the first CRLF resolves the probe: the reply
      read so far is split on CRLF, blank pieces dropped, the rest joined
      with a newline into `serverResponse` and parsed for capabilities;
      nothing else in the result changes. */
  lemma HandshakeCompletes(p: Probe, chunk: string)
    requires p.phase.Handshaking?
    requires IncludesCrlf(p.phase.response + chunk)
    ensures var q := Step(p, Data(chunk));
      var lines := Smtp.ReplyLines(p.phase.response + chunk);
      && q.phase.Settled?
      && q.result.details.serverResponse == Join(lines, "\n")
      && q.result.details.smtpCapabilities == Smtp.ParseCapabilities(lines)
      && q.result == p.result.(details := q.result.details)
      && q.result.details == p.result.details.(serverResponse := q.result.details.serverResponse,
                                               smtpCapabilities := q.result.details.smtpCapabilities)
      && q.written == p.written
  {
  }

  /** Once connected there is no timer any more: timeouts, closes and
      repeated connects leave a waiting probe pending for ever. */
  lemma {:induction false} NoHandshakeTimeout(p: Probe, events: seq<Event>)
    requires p.phase.Handshaking?
    requires forall k :: 0 <= k < |events| ==> events[k].Timeout? || events[k].Close? || events[k].Connect?
    ensures Run(p, events) == p
    decreases |events|
  {
    if |events| > 0 {
      assert forall k :: 0 <= k < |events[1..]| ==> events[1..][k] == events[k + 1];
      NoHandshakeTimeout(p, events[1..]);
    }
  }

  /** An error while the reply is awaited resolves with the error's message,
      its code and syscall (or their fallbacks) and the suggestions for its
      code, but the result still says success and nothing else changes. */
  lemma ErrorAfterConnectKeepsSuccess(p: Probe, err: SocketError)
    requires p.phase.Handshaking? && p.result.success
    ensures var q := Step(p, Error(err));
      && q.phase.Settled?
      && q.result.success
      && q.result.message == FailurePrefix + err.message
      && q.result.details == p.result.details.(
           errorDetails := Some(ErrorDetails(
             Diagnostics.ReportedCode(err.code), err.message, Diagnostics.ReportedSyscall(err.syscall))),
           suggestions := Diagnostics.Suggestions(err.code))
      && q.written == p.written
  {
  }

  /** The piece after the last CRLF is kept although no CRLF ends it: a
      reply that stops half-way through its second line reports both. */
  lemma PartialLineKept(a: string, b: string)
    requires !IncludesCrlf(a) && !IncludesCrlf(b) && !IsBlank(a) && !IsBlank(b)
    ensures Smtp.ReplyLines(a + CRLF + b) == [a, b]
    ensures Join(Smtp.ReplyLines(a + CRLF + b), "\n") == a + "\n" + b
  {
    SplitAfterFirstPiece(a, b);
    SplitWithoutCrlf(b);
    assert [a] + [b] == [a, b];
    assert [a, b][1..] == [b] && [b][1..] == [];
    assert DropBlank([b]) == [b];
  }

  /** On an SMTP port, a connect followed by a reply chunk that holds a
      CRLF resolves with that reply framed and parsed. */
  lemma ConnectThenReply(host: string, port: int, ip: string, local: Endpoint, remote: Endpoint, chunk: string)
    requires IsSmtpPort(port) && IncludesCrlf(chunk)
    ensures var o := TestConnection(host, port, ip, [Connect(local, remote), Data(chunk)]);
      var lines := Smtp.ReplyLines(chunk);
      && o.reply.Some? && o.reply.value.success
      && o.reply.value.details.localAddress == FormatEndpoint(local)
      && o.reply.value.details.remoteAddress == FormatEndpoint(remote)
      && o.reply.value.details.serverResponse == Join(lines, "\n")
      && o.reply.value.details.smtpCapabilities == Smtp.ParseCapabilities(lines)
      && o.written == [EhloCommand]
  {
    var s := Start(host, port, ip);
    var c := Step(s, Connect(local, remote));
    assert c.phase == Handshaking("") && c.written == [EhloCommand];
    assert "" + chunk == chunk;
    var events := [Connect(local, remote), Data(chunk)];
    assert events[1..] == [Data(chunk)] && events[1..][1..] == [];
    var d := Step(c, Data(chunk));
    assert d.phase.Settled?;
    SettledIsFinal(d, []);
    assert Run(c, [Data(chunk)]) == d;
    assert Run(s, events) == Run(c, [Data(chunk)]);
  }

  lemma JoinOfThree(a: string, b: string, c: string, sep: string)
    ensures Join([a, b, c], sep) == a + sep + (b + sep + c)
  {
    assert [a, b, c][1..] == [b, c] && [b, c][1..] == [c];
    assert Join([c], sep) == c;
    assert Join([b, c], sep) == b + sep + c;
  }

  /** The whole exchange on port 25: connect, and the EHLO reply in one
      chunk. The probe succeeds, reports the three lines joined by newlines
      and only the capability without a space. */
  lemma SmtpExchangeExample(host: string, ip: string, local: Endpoint, remote: Endpoint,
                            reply: string, greeting: string, auth: string, ok: string)
    requires SmtpExamples.IsExampleReply(reply, greeting, auth, ok)
    ensures var o := TestConnection(host, 25, ip, [Connect(local, remote), Data(reply)]);
      && o.reply.Some? && o.reply.value.success
      && o.reply.value.details.serverResponse == greeting + "\n" + (auth + "\n" + ok)
      && o.reply.value.details.smtpCapabilities == ["OK"]
      && o.written == [EhloCommand]
  {
    SmtpExamples.ReplyLinesOfExample(reply, greeting, auth, ok);
    SmtpExamples.GenericParserExample(reply, greeting, auth, ok);
    SmtpExamples.ThreeLinesIncludesCrlf(greeting, auth, ok);
    JoinOfThree(greeting, auth, ok, "\n");
    ConnectThenReply(host, 25, ip, local, remote, reply);
  }
}

=== FILE: smtp.dfy ===
/** The two EHLO reply parsers. Both recognise a reply line only by its
    `250-` / `250 ` prefix (the multi-line form of section 4.1.1.1 of
    RFC 5321), but they keep different things:
    - the generic prober (api/test-port) trims each remainder and drops
      any that contains a space;
    - the port-25 prober (api/test-port25) keeps its first line as the
      server banner and keeps remainders with spaces, untrimmed. */
module Smtp {
  import opened Text

  /** `response.split('\r\n').filter(line => line.trim())`: non-blank,
      CRLF-free lines, none exactly when the response is blank.
      ReplyLinesMembership adds that they are exactly the non-blank pieces
      between CRLFs, and ReplyLinesFrame that they keep their order. */
  function ReplyLines(response: string): (lines: seq<string>)
    ensures forall k :: 0 <= k < |lines| ==> !IsBlank(lines[k]) && !IncludesCrlf(lines[k])
    ensures lines == [] <==> IsBlank(response)
  {
    DropBlankOfSplit(response);
    DropBlank(SplitCrlf(response))
  }

  /** A line is kept exactly when it is a non-blank piece of the response. */
  lemma ReplyLinesMembership(response: string, line: string)
    ensures line in ReplyLines(response) <==> line in SplitCrlf(response) && !IsBlank(line)
  {
    var pieces := SplitCrlf(response);
    DropBlankKeeps(pieces);
    if line in pieces && !IsBlank(line) {
      var k :| 0 <= k < |pieces| && pieces[k] == line;
    }
  }

  /** Framing reads the response from the front: the piece before the first
      CRLF comes first, if it is not blank, then the lines of the rest. */
  lemma ReplyLinesFrame(first: string, rest: string)
    requires !IncludesCrlf(first)
    ensures ReplyLines(first + CRLF + rest) == (if IsBlank(first) then [] else [first]) + ReplyLines(rest)
  {
    SplitAfterFirstPiece(first, rest);
    DropBlankAppend([first], SplitCrlf(rest));
    DropBlankSingle(first);
  }

  /** A line of a positive EHLO reply: `250-` continues it, `250 ` ends it. */
  predicate IsReplyLine(line: string) {
    StartsWith(line, "250-") || StartsWith(line, "250 ")
  }

  /** `line.replace` of the regular expression `^250-?\s*` by nothing, on a reply line. The anchored pattern
      cuts the code 250, then a hyphen if one follows, then all white space
      after it; what is left does not start with white space. */
  function StripReplyCode(line: string): (rest: string)
    requires IsReplyLine(line)
    ensures |rest| <= |line| - 4 && rest == line[|line| - |rest|..]
    ensures rest == [] || !IsSpace(rest[0])
  {
    ReplyLineShape(line);
    var afterCode := line[3..];
    if afterCode[0] == '-' then
      TrimStart(afterCode[1..])
    else
      TrimStartDrops(afterCode);
      TrimStart(afterCode)
  }

  /** A reply line has the code, then a hyphen or a space. */
  lemma ReplyLineShape(line: string)
    requires IsReplyLine(line)
    ensures |line| >= 4 && line[..3] == "250" && (line[3] == '-' || line[3] == ' ')
  {
    var head := line[..4];
    assert head == "250-" || head == "250 ";
    assert line[..3] == head[..3];
    assert line[3] == head[3];
  }

  /** Text that starts with white space loses at least that much to
      `\s*`. */
  lemma TrimStartDrops(s: string)
    requires |s| >= 1 && IsSpace(s[0])
    ensures |TrimStart(s)| < |s|
  {
  }

  /** What the pattern cuts is the code 250, then either only white space or
      a hyphen followed only by white space. */
  lemma StripReplyCodeCut(line: string)
    requires IsReplyLine(line)
    ensures var rest := StripReplyCode(line); var cut := line[3..|line| - |rest|];
      && line[..3] == "250"
      && (IsBlank(cut) || (cut[0] == '-' && IsBlank(cut[1..])))
  {
    var rest := StripReplyCode(line);
    var afterCode := line[3..];
    if afterCode[0] == '-' {
      assert line[3..|line| - |rest|][1..] == afterCode[1..][..|afterCode[1..]| - |rest|];
    } else {
      assert line[3..|line| - |rest|] == afterCode[..|afterCode| - |rest|];
    }
  }

  /** Cutting the code from `250-` or `250 ` followed by a remainder that
      does not start with white space gives that remainder back. */
  lemma StripReplyCodeRoundTrip(code: string, rest: string)
    requires code == "250-" || code == "250 "
    requires rest == [] || !IsSpace(rest[0])
    ensures IsReplyLine(code + rest)
    ensures StripReplyCode(code + rest) == rest
  {
    var line := code + rest;
    assert line[..4] == code;
    assert line[4..] == rest;
    if code == "250 " {
      assert line[3..] == [' '] + rest;
      assert LeadingSpace(line[3..], 1) == 1;
      assert LeadingSpace(line[3..], 0) == 1;
    } else {
      assert line[3..][1..] == rest;
      assert LeadingSpace(rest, 0) == 0;
    }
  }

  /** A string with no white space at either end is its own trim. */
  lemma TrimFixed(s: string)
    requires s != [] && !IsSpace(s[0]) && !IsSpace(s[|s| - 1])
    ensures Trim(s) == s
  {
    assert LeadingSpace(s, 0) == 0;
    assert TrailingSpace(s, |s|) == |s|;
  }

  // ----- generic prober: parseSMTPCapabilities(lines) -----

  /** The same replacement followed by `.trim()`. */
  function Capability(line: string): string
    requires IsReplyLine(line)
  {
    Trim(StripReplyCode(line))
  }

  /** The generic prober's acceptance test: `capability && !capability.includes(' ')`. */
  predicate Advertised(cap: string) {
    cap != "" && ' ' !in cap
  }

  /** A capability as the generic prober emits it: advertised, and with no
      white space at either end. */
  predicate IsCapabilityToken(cap: string) {
    Advertised(cap) && !IsSpace(cap[0]) && !IsSpace(cap[|cap| - 1])
  }

  /** What one line adds to the capability list: its capability, or nothing. */
  function Contribution(line: string): (r: seq<string>)
    ensures |r| <= 1
    ensures r != [] ==> IsCapabilityToken(r[0])
  {
    if IsReplyLine(line) && Advertised(Capability(line)) then [Capability(line)] else []
  }

  lemma AllCapabilityTokens(head: seq<string>, tail: seq<string>)
    requires forall k :: 0 <= k < |head| ==> IsCapabilityToken(head[k])
    requires forall k :: 0 <= k < |tail| ==> IsCapabilityToken(tail[k])
    ensures forall k :: 0 <= k < |head + tail| ==> IsCapabilityToken((head + tail)[k])
  {
  }

  /** The generic prober's parser. Every capability is non-empty, holds no
      space character and has no white space at either end; there are never
      more capabilities than lines. */
  function ParseCapabilities(lines: seq<string>): (caps: seq<string>)
    ensures |caps| <= |lines|
    ensures forall k :: 0 <= k < |caps| ==> IsCapabilityToken(caps[k])
  {
    if |lines| == 0 then []
    else
      var head := Contribution(lines[0]);
      var tail := ParseCapabilities(lines[1..]);
      AllCapabilityTokens(head, tail);
      head + tail
  }

  /** Parsing distributes over concatenation: the capabilities of earlier
      lines come first, so the output keeps the order of its source lines. */
  lemma {:induction false} ParseCapabilitiesAppend(a: seq<string>, b: seq<string>)
    ensures ParseCapabilities(a + b) == ParseCapabilities(a) + ParseCapabilities(b)
    decreases |a|
  {
    if |a| > 0 {
      assert (a + b)[0] == a[0];
      assert (a + b)[1..] == a[1..] + b;
      ParseCapabilitiesAppend(a[1..], b);
    } else {
      assert a + b == b;
    }
  }

  /** `line` is a reply line whose trimmed remainder is the advertised capability `c`. */
  predicate Yields(line: string, c: string) {
    IsReplyLine(line) && Capability(line) == c && Advertised(c)
  }

  lemma ContributionYields(line: string, c: string)
    ensures c in Contribution(line) <==> Yields(line, c)
  {
  }

  /** A string is emitted exactly when some reply line yields it: the line
      minus its code, trimmed, is that string, non-empty and space-free. */
  lemma ParseCapabilitiesMembership(lines: seq<string>, c: string)
    ensures c in ParseCapabilities(lines) <==> exists i :: 0 <= i < |lines| && Yields(lines[i], c)
  {
    ContributedBy(lines, c);
    forall i | 0 <= i < |lines| {
      ContributionYields(lines[i], c);
    }
  }

  /** Membership in the output, line by line. */
  lemma {:induction false} ContributedBy(lines: seq<string>, c: string)
    ensures c in ParseCapabilities(lines) <==> exists i :: 0 <= i < |lines| && c in Contribution(lines[i])
    decreases |lines|
  {
    if |lines| > 0 {
      var tail := lines[1..];
      var head := Contribution(lines[0]);
      assert ParseCapabilities(lines) == head + ParseCapabilities(tail);
      ContributedBy(tail, c);
      if c in ParseCapabilities(lines) && c !in head {
        var j :| 0 <= j < |tail| && c in Contribution(tail[j]);
        assert tail[j] == lines[j + 1];
      }
      if exists i :: 0 <= i < |lines| && c in Contribution(lines[i]) {
        var i :| 0 <= i < |lines| && c in Contribution(lines[i]);
        if i > 0 {
          assert lines[i] == tail[i - 1];
        }
      }
    }
  }

  /** A line without the 250 prefix, the 220 greeting among them,
      contributes nothing wherever it stands. */
  lemma ParseCapabilitiesIgnoresOtherLines(a: seq<string>, line: string, b: seq<string>)
    requires !IsReplyLine(line)
    ensures ParseCapabilities(a + [line] + b) == ParseCapabilities(a + b)
  {
    ParseCapabilitiesAppend(a + [line], b);
    ParseCapabilitiesAppend(a, [line]);
    ParseCapabilitiesAppend(a, b);
  }

  // ----- port-25 prober: parseSMTPCapabilities(response) -----

  /** `{ server, features }`: the banner line and the advertised features. */
  datatype Greeting = Greeting(server: string, features: seq<string>)

  /** What a line after the first adds: its remainder after the code, untrimmed, if non-empty. */
  predicate IsFeature(f: string) {
    f != "" && !IsSpace(f[0])
  }

  function FeatureContribution(line: string): (r: seq<string>)
    ensures |r| <= 1
    ensures r != [] ==> IsFeature(r[0])
  {
    if IsReplyLine(line) && StripReplyCode(line) != "" then [StripReplyCode(line)] else []
  }

  lemma AllFeatures(head: seq<string>, tail: seq<string>)
    requires forall k :: 0 <= k < |head| ==> IsFeature(head[k])
    requires forall k :: 0 <= k < |tail| ==> IsFeature(tail[k])
    ensures forall k :: 0 <= k < |head + tail| ==> IsFeature((head + tail)[k])
  {
  }

  /** The features of the lines after the banner. Each is a non-empty
      suffix of its line that does not start with white space. */
  function Features(lines: seq<string>): (features: seq<string>)
    ensures |features| <= |lines|
    ensures forall k :: 0 <= k < |features| ==> IsFeature(features[k])
  {
    if |lines| == 0 then []
    else
      var head := FeatureContribution(lines[0]);
      var tail := Features(lines[1..]);
      AllFeatures(head, tail);
      head + tail
  }

  /** The port-25 prober's parser. The banner is empty exactly when the
      response is blank, and then there are no features either; the banner
      never holds a CRLF; there are fewer features than kept lines. */
  function ParseGreeting(response: string): (g: Greeting)
    ensures g.server == "" <==> IsBlank(response)
    ensures g.server == "" ==> g.features == []
    ensures !IncludesCrlf(g.server)
    ensures g.server != "" ==> |g.features| < |ReplyLines(response)|
  {
    var lines := ReplyLines(response);
    if |lines| == 0 then Greeting("", [])
    else
      assert lines[0] != "" by { assert !IsBlank(lines[0]); }
      Greeting(lines[0], Features(lines[1..]))
  }

  lemma {:induction false} FeaturesAppend(a: seq<string>, b: seq<string>)
    ensures Features(a + b) == Features(a) + Features(b)
    decreases |a|
  {
    if |a| > 0 {
      assert (a + b)[0] == a[0];
      assert (a + b)[1..] == a[1..] + b;
      FeaturesAppend(a[1..], b);
    } else {
      assert a + b == b;
    }
  }

  /** `line` is a reply line whose remainder after the code is the non-empty `f`. */
  predicate YieldsFeature(line: string, f: string) {
    IsReplyLine(line) && StripReplyCode(line) == f && f != ""
  }

  /** A string is a feature exactly when some reply line, stripped of its
      code, leaves that non-empty string; spaces inside it are kept. */
  lemma FeaturesMembership(lines: seq<string>, f: string)
    ensures f in Features(lines) <==> exists i :: 0 <= i < |lines| && YieldsFeature(lines[i], f)
  {
    FeatureContributedBy(lines, f);
    forall i | 0 <= i < |lines| ensures f in FeatureContribution(lines[i]) <==> YieldsFeature(lines[i], f) {
    }
  }

  /** Membership in the features, line by line. */
  lemma {:induction false} FeatureContributedBy(lines: seq<string>, f: string)
    ensures f in Features(lines) <==> exists i :: 0 <= i < |lines| && f in FeatureContribution(lines[i])
    decreases |lines|
  {
    if |lines| > 0 {
      var tail := lines[1..];
      var head := FeatureContribution(lines[0]);
      assert Features(lines) == head + Features(tail);
      FeatureContributedBy(tail, f);
      if f in Features(lines) && f !in head {
        var j :| 0 <= j < |tail| && f in FeatureContribution(tail[j]);
        assert tail[j] == lines[j + 1];
      }
      if exists i :: 0 <= i < |lines| && f in FeatureContribution(lines[i]) {
        var i :| 0 <= i < |lines| && f in FeatureContribution(lines[i]);
        if i > 0 {
          assert lines[i] == tail[i - 1];
        }
      }
    }
  }

  /** The first non-blank line is the banner and never a feature, even if it
      starts with 250; the features come from what follows the first CRLF. */
  lemma ParseGreetingFirstLine(first: string, rest: string)
    requires !IsBlank(first) && !IncludesCrlf(first)
    ensures ParseGreeting(first + CRLF + rest) == Greeting(first, Features(ReplyLines(rest)))
  {
    SplitAfterFirstPiece(first, rest);
    assert SplitCrlf(first + CRLF + rest)[1..] == SplitCrlf(rest);
  }

  /** A blank piece before the first CRLF is dropped before the banner is
      chosen: the greeting is that of what follows it. */
  lemma BlankFirstPiece(first: string, rest: string)
    requires IsBlank(first) && !IncludesCrlf(first)
    ensures ParseGreeting(first + CRLF + rest) == ParseGreeting(rest)
  {
    ReplyLinesFrame(first, rest);
    assert ReplyLines(first + CRLF + rest) == ReplyLines(rest);
  }

  /** A reply with no CRLF at all, such as one unterminated chunk, is its
      own banner when it is not blank, and has no features. With
      BlankFirstPiece this also covers blank pieces before it. */
  lemma GreetingWithoutCrlf(s: string)
    requires !IsBlank(s) && !IncludesCrlf(s)
    ensures ParseGreeting(s) == Greeting(s, [])
  {
    SplitWithoutCrlf(s);
    DropBlankSingle(s);
    assert ReplyLines(s) == [s];
    assert [s][1..] == [];
  }
}

/** The two parsers on one reply: a 220 greeting, a continuation line whose
    capability holds a space, and a final line. */
module SmtpExamples {
  import opened Text
  import opened Smtp

  /** `reply` is `220 hello`, `250-AUTH LOGIN`, `250 OK`, each ended by CRLF.
      The reply lines are written as reply code plus remainder so that the
      proofs can cut the code off without unfolding the whole literal. */
  predicate IsExampleReply(reply: string, greeting: string, auth: string, ok: string) {
    && greeting == "220 hello" && auth == "250-" + "AUTH LOGIN" && ok == "250 " + "OK"
    && reply == ThreeLines(greeting, auth, ok)
  }

  lemma NoCrlfWithoutCr(s: string)
    requires '\r' !in s
    ensures !IncludesCrlf(s)
  {
    forall i | 0 <= i < |s| - 1 ensures s[i] != '\r' {
      assert s[i] in s;
    }
  }

  /** `g`, `a` and `o`, each ended by CRLF. */
  function ThreeLines(g: string, a: string, o: string): string {
    g + CRLF + (a + CRLF + (o + CRLF + ""))
  }

  lemma ThreeLinesIncludesCrlf(g: string, a: string, o: string)
    ensures IncludesCrlf(ThreeLines(g, a, o))
  {
    var s := ThreeLines(g, a, o);
    assert s[|g|] == '\r' && s[|g| + 1] == '\n';
  }

  /** Three non-blank lines, each ended by CRLF, come back as those lines. */
  lemma ReplyLinesOfThree(g: string, a: string, o: string)
    requires !IsBlank(g) && !IsBlank(a) && !IsBlank(o)
    requires !IncludesCrlf(g) && !IncludesCrlf(a) && !IncludesCrlf(o)
    ensures ReplyLines(ThreeLines(g, a, o)) == [g, a, o]
  {
    LastLine(o);
    ReplyLinesFrame(a, o + CRLF + "");
    ReplyLinesFrame(g, a + CRLF + (o + CRLF + ""));
  }

  /** A non-blank line ended by CRLF comes back alone. */
  lemma LastLine(o: string)
    requires !IsBlank(o) && !IncludesCrlf(o)
    ensures ReplyLines(o + CRLF + "") == [o]
  {
    ReplyLinesFrame(o, "");
    assert ReplyLines("") == [];
  }

  lemma ReplyLinesOfExample(reply: string, greeting: string, auth: string, ok: string)
    requires IsExampleReply(reply, greeting, auth, ok)
    ensures ReplyLines(reply) == [greeting, auth, ok]
  {
    NoCrlfWithoutCr(greeting);
    NoCrlfWithoutCr(auth);
    NoCrlfWithoutCr(ok);
    assert !IsSpace(greeting[0]) && !IsSpace(auth[0]) && !IsSpace(ok[0]);
    ReplyLinesOfThree(greeting, auth, ok);
  }

  lemma ParseCapabilitiesOfOne(x: string)
    ensures ParseCapabilities([x]) == Contribution(x)
  {
    assert [x][1..] == [];
  }

  lemma ParseCapabilitiesOfThree(g: string, a: string, o: string)
    ensures ParseCapabilities([g, a, o]) == Contribution(g) + Contribution(a) + Contribution(o)
  {
    assert [g, a, o] == [g, a] + [o];
    ParseCapabilitiesAppend([g, a], [o]);
    ParseCapabilitiesOfTwo(g, a);
    ParseCapabilitiesOfOne(o);
  }

  lemma ParseCapabilitiesOfTwo(g: string, a: string)
    ensures ParseCapabilities([g, a]) == Contribution(g) + Contribution(a)
  {
    assert [g, a] == [g] + [a];
    ParseCapabilitiesAppend([g], [a]);
    ParseCapabilitiesOfOne(g);
    ParseCapabilitiesOfOne(a);
  }

  lemma GreetingContributesNothing(greeting: string)
    requires greeting == "220 hello"
    ensures Contribution(greeting) == []
  {
    assert !IsReplyLine(greeting) by { assert greeting[..4][1] == '2'; }
  }

  /** A reply line whose remainder is a spaced word contributes nothing. */
  lemma SpacedRemainderDropped(code: string, cap: string)
    requires code == "250-" || code == "250 "
    requires cap != [] && !IsSpace(cap[0]) && !IsSpace(cap[|cap| - 1]) && ' ' in cap
    ensures Contribution(code + cap) == []
  {
    StripReplyCodeRoundTrip(code, cap);
    TrimFixed(cap);
  }

  // The line is code plus remainder, as in IsExampleReply, to keep the proof cheap.
  lemma SpacedCapabilityDropped(auth: string)
    requires auth == "250-" + "AUTH LOGIN"
    ensures Contribution(auth) == []
  {
    var cap := "AUTH LOGIN";
    assert cap[4] == ' ' && cap[4] in cap;
    SpacedRemainderDropped("250-", cap);
  }

  // The line is code plus remainder, as in IsExampleReply, to keep the proof cheap.
  lemma PlainCapabilityKept(ok: string)
    requires ok == "250 " + "OK"
    ensures Contribution(ok) == ["OK"]
  {
    StripReplyCodeRoundTrip("250 ", "OK");
    TrimFixed("OK");
  }

  /** The generic prober drops "AUTH LOGIN" because it holds a space, and
      the 220 greeting is not a capability. */
  lemma GenericParserExample(reply: string, greeting: string, auth: string, ok: string)
    requires IsExampleReply(reply, greeting, auth, ok)
    ensures ParseCapabilities(ReplyLines(reply)) == ["OK"]
  {
    ReplyLinesOfExample(reply, greeting, auth, ok);
    ParseCapabilitiesOfThree(greeting, auth, ok);
    GreetingContributesNothing(greeting);
    SpacedCapabilityDropped(auth);
    PlainCapabilityKept(ok);
  }

  /** The port-25 prober keeps the greeting as its banner and both features,
      the spaced one included. */
  lemma Port25ParserExample(reply: string, greeting: string, auth: string, ok: string)
    requires IsExampleReply(reply, greeting, auth, ok)
    ensures ParseGreeting(reply) == Greeting("220 hello", ["AUTH LOGIN", "OK"])
  {
    ReplyLinesOfExample(reply, greeting, auth, ok);
    StripReplyCodeRoundTrip("250-", "AUTH LOGIN");
    StripReplyCodeRoundTrip("250 ", "OK");
    assert FeatureContribution(auth) == ["AUTH LOGIN"] && FeatureContribution(ok) == ["OK"];
    assert [auth, ok][1..] == [ok] && [ok][1..] == [];
    assert Features([ok]) == ["OK"];
    assert Features([auth, ok]) == ["AUTH LOGIN", "OK"];
    assert [greeting, auth, ok][1..] == [auth, ok];
  }
}

=== FILE: socket_events.dfy ===
/** What a probe can observe of its socket and its timer, as a trace of
    events in the order the event loop delivers them. */
module SocketEvents {
  import opened Wrappers
  import Text
  import Decimal

  /** One end of a TCP connection, as `socket.localAddress` /
      `socket.localPort` (or the remote pair) report it. */
  datatype Endpoint = Endpoint(address: string, port: nat)

  /** The Node.js error object handed to an `'error'` listener: `code` and
      `syscall` may be undefined, `typeName` is `err.constructor.name`. */
  datatype SocketError = SocketError(code: Option<string>, message: string, syscall: Option<string>, typeName: string)

  /** `Timeout` is the probe's own 10-second timer firing; the others are
      the socket's `'connect'`, `'data'`, `'error'` and `'close'` events. */
  datatype Event =
    | Timeout
    | Connect(local: Endpoint, remote: Endpoint)
    | Data(chunk: string)
    | Error(err: SocketError)
    | Close

  /** `${address}:${port}`: the address, a colon, then the port's digits
      with no leading zero. */
  function FormatEndpoint(e: Endpoint): (s: string)
    ensures |s| > |e.address| + 1
    ensures s[..|e.address|] == e.address && s[|e.address|] == ':'
    ensures var digits := s[|e.address| + 1..];
      && (forall k :: 0 <= k < |digits| ==> Decimal.IsDigit(digits[k]))
      && Decimal.DigitsValue(digits) == e.port
      && (digits[0] == '0' ==> digits == "0")
  {
    var s := e.address + ":" + Decimal.NatToString(e.port);
    assert s[|e.address| + 1..] == Decimal.NatToString(e.port);
    s
  }

  /** The digits after the colon hold no colon, so the last colon in the
      text tells address and port apart: different endpoints (IPv6
      addresses with colons of their own included) format differently. */
  lemma FormatEndpointInjective(e1: Endpoint, e2: Endpoint)
    requires FormatEndpoint(e1) == FormatEndpoint(e2)
    ensures e1 == e2
  {
    var s := FormatEndpoint(e1);
    var a1, a2 := |e1.address|, |e2.address|;
    forall k | a1 < k < |s| ensures s[k] != ':' {
      assert s[k] == s[a1 + 1..][k - a1 - 1];
    }
    forall k | a2 < k < |s| ensures s[k] != ':' {
      assert s[k] == s[a2 + 1..][k - a2 - 1];
    }
    assert s[a1] == ':' && s[a2] == ':';
    assert e1.address == e2.address;
    var digits := s[a1 + 1..];
    assert Decimal.DigitsValue(digits) == e1.port == e2.port;
  }

  /** One `'data'` event per chunk, in order. */
  function DataEvents(chunks: seq<string>): (events: seq<Event>)
    ensures |events| == |chunks|
    ensures forall k :: 0 <= k < |chunks| ==> events[k] == Data(chunks[k])
  {
    if |chunks| == 0 then [] else [Data(chunks[0])] + DataEvents(chunks[1..])
  }

  /** The chunks run together, as `response += data.toString()` builds them:
      nothing before the first chunk, which opens the text. ConcatSnoc adds
      that each later chunk goes on the end. */
  function Concat(chunks: seq<string>): (r: string)
    ensures |chunks| == 0 ==> r == ""
    ensures |chunks| >= 1 ==> Text.StartsWith(r, chunks[0])
  {
    if |chunks| == 0 then "" else chunks[0] + Concat(chunks[1..])
  }

  /** Each chunk goes on the end of what came before it. */
  lemma {:induction false} ConcatSnoc(chunks: seq<string>, last: string)
    ensures Concat(chunks + [last]) == Concat(chunks) + last
    decreases |chunks|
  {
    if |chunks| == 0 {
      assert chunks + [last] == [last];
      assert Concat([last]) == last + Concat([]);
    } else {
      assert (chunks + [last])[1..] == chunks[1..] + [last];
      ConcatSnoc(chunks[1..], last);
    }
  }

  /** A text that contains CRLF still does once more text follows it. */
  lemma IncludesCrlfExtend(a: string, b: string)
    requires Text.IncludesCrlf(a)
    ensures Text.IncludesCrlf(a + b)
  {
    var i :| 0 <= i < |a| - 1 && a[i] == '\r' && a[i + 1] == '\n';
    assert (a + b)[i] == a[i] && (a + b)[i + 1] == a[i + 1];
  }
}

=== FILE: test_port_api.dfy ===
/** The POST handler of the generic prober: read `host` and `port` from the
    JSON body, refuse missing or out-of-range values with status 400, and
    otherwise answer with the probe's result. */
module TestPortApi {
  import opened Wrappers
  import PortProbe
  import SocketEvents

  /** A request body as far as the handler reads it: a body that could not
      be read as JSON (with the exception's message), or the `host` and
      `port` fields, either of which may be absent. */
  datatype Request = Unreadable(error: string) | Json(host: Option<string>, port: Option<int>)

  /** The `details` of a response: the advice for a refused request, the
      advice and parse error for an unreadable one, or the probe's details. */
  datatype Body =
    | Refused(suggestion: string)
    | Malformed(suggestion: string, error: string)
    | Probed(details: PortProbe.Details)

  datatype Response = Response(status: int, success: bool, message: string, body: Body)

  const MissingMessage: string := "Host and port are required"
  const MissingSuggestion: string := "Please provide both host and port values"
  const RangeMessage: string := "Invalid port number"
  const RangeSuggestion: string := "Port must be between 1 and 65535"
  const FormatMessage: string := "Invalid request format"
  const FormatSuggestion: string := "Please send valid JSON with host and port"

  /** JavaScript falsiness of the two fields: an absent or empty host, an
      absent or zero port. */
  predicate MissingHost(host: Option<string>) {
    host.None? || host.value == ""
  }

  predicate MissingPort(port: Option<int>) {
    port.None? || port.value == 0
  }

  /** The requests that reach `testConnection`. */
  predicate Accepted(req: Request) {
    && req.Json?
    && req.host.Some? && req.host.value != ""
    && req.port.Some? && 1 <= req.port.value <= 65535
  }

  /** `POST(request)` with the public address `ip` and the probe's event
      trace `events`; None while the probe is still pending. Every refused
      request gets 400 and no probe; every accepted one gets the probe's
      result with status 200, whether the probe succeeded or not. */
  function Post(req: Request, ip: string, events: seq<SocketEvents.Event>): (resp: Option<Response>)
    ensures !Accepted(req) ==> resp.Some? && resp.value.status == 400 && !resp.value.success && !resp.value.body.Probed?
    ensures Accepted(req) ==>
      var o := PortProbe.TestConnection(req.host.value, req.port.value, ip, events);
      && (resp.Some? <==> o.reply.Some?)
      && (resp.Some? ==>
            && resp.value.status == 200
            && resp.value.success == o.reply.value.success
            && resp.value.message == o.reply.value.message
            && resp.value.body == Probed(o.reply.value.details))
  {
    match req
    case Unreadable(error) =>
      Some(Response(400, false, FormatMessage, Malformed(FormatSuggestion, error)))
    case Json(host, port) =>
      if MissingHost(host) || MissingPort(port) then
        Some(Response(400, false, MissingMessage, Refused(MissingSuggestion)))
      else if port.value < 1 || port.value > 65535 then
        Some(Response(400, false, RangeMessage, Refused(RangeSuggestion)))
      else
        var o := PortProbe.TestConnection(host.value, port.value, ip, events);
        match o.reply
        case None => None
        case Some(r) => Some(Response(200, r.success, r.message, Probed(r.details)))
  }

  /** The presence check comes first: port 0 is "required", not "invalid",
      and so is any port when the host is missing. */
  lemma PresenceBeforeRange(host: Option<string>, port: Option<int>, ip: string, events: seq<SocketEvents.Event>)
    requires MissingHost(host) || MissingPort(port)
    ensures Post(Json(host, port), ip, events) == Some(Response(400, false, MissingMessage, Refused(MissingSuggestion)))
  {
  }

  /** A present port outside 1..65535 with a host is refused as invalid. */
  lemma RangeRefusal(host: string, port: int, ip: string, events: seq<SocketEvents.Event>)
    requires host != "" && port != 0 && (port < 1 || port > 65535)
    ensures Post(Json(Some(host), Some(port)), ip, events) == Some(Response(400, false, RangeMessage, Refused(RangeSuggestion)))
  {
  }

  /** The three refusals, and only they, carry status 400, and which one a
      request gets is decided by the request alone. */
  lemma RefusalIndependentOfProbe(req: Request, ip1: string, e1: seq<SocketEvents.Event>, ip2: string, e2: seq<SocketEvents.Event>)
    requires !Accepted(req)
    ensures Post(req, ip1, e1) == Post(req, ip2, e2)
    ensures Post(req, ip1, e1).value.message in {FormatMessage, MissingMessage, RangeMessage}
  {
  }

  /** A status of 400 means the request was refused; 200 means it was
      probed. */
  lemma StatusTellsAcceptance(req: Request, ip: string, events: seq<SocketEvents.Event>)
    requires Post(req, ip, events).Some?
    ensures Post(req, ip, events).value.status == 400 <==> !Accepted(req)
    ensures Post(req, ip, events).value.status == 200 <==> Accepted(req)
  {
  }
}

=== FILE: text.dfy ===
/** The JavaScript string primitives the probe relies on: `trim`, the
    regular-expression class `\s`, `startsWith`, `includes('\r\n')`,
    `split('\r\n')`, `join` and `filter(line => line.trim())`. */
module Text {

  const CRLF: string := "\r\n"

  /** ECMAScript WhiteSpace and LineTerminator code points: exactly the
      characters `String.prototype.trim` removes and `\s` matches. */
  predicate IsSpace(c: char) {
    || c == '\t' || c == '\n' || c == '\U{0B}' || c == '\U{0C}' || c == '\r'
    || c == ' ' || c == '\U{A0}' || c == '\U{1680}'
    || ('\U{2000}' <= c <= '\U{200A}')
    || c == '\U{2028}' || c == '\U{2029}' || c == '\U{202F}' || c == '\U{205F}'
    || c == '\U{3000}' || c == '\U{FEFF}'
  }

  /** Every character is white space (`s.trim() === ''`). */
  predicate IsBlank(s: string) {
    forall i :: 0 <= i < |s| ==> IsSpace(s[i])
  }

  predicate StartsWith(s: string, prefix: string) {
    |prefix| <= |s| && s[..|prefix|] == prefix
  }

  /** `s.includes('\r\n')`. */
  predicate IncludesCrlf(s: string) {
    exists i :: 0 <= i < |s| - 1 && s[i] == '\r' && s[i + 1] == '\n'
  }

  /** The end of the run of white space in `s` that starts at `from`. */
  function LeadingSpace(s: string, from: nat): (n: nat)
    requires from <= |s|
    ensures from <= n <= |s|
    ensures forall k :: from <= k < n ==> IsSpace(s[k])
    ensures n == |s| || !IsSpace(s[n])
    decreases |s| - from
  {
    if from < |s| && IsSpace(s[from]) then LeadingSpace(s, from + 1) else from
  }

  /** The start of the run of white space in `s` that ends at `to`. */
  function TrailingSpace(s: string, to: nat): (n: nat)
    requires to <= |s|
    ensures n <= to
    ensures forall k :: n <= k < to ==> IsSpace(s[k])
    ensures n == 0 || !IsSpace(s[n - 1])
  {
    if to > 0 && IsSpace(s[to - 1]) then TrailingSpace(s, to - 1) else to
  }

  /** `s.trimStart()`, and what `\s*` consumes at the front of `s`: the
      longest suffix that does not start with white space. */
  function TrimStart(s: string): (r: string)
    ensures |r| <= |s| && r == s[|s| - |r|..]
    ensures IsBlank(s[..|s| - |r|])
    ensures r == [] || !IsSpace(r[0])
  {
    s[LeadingSpace(s, 0)..]
  }

  /** `s.trim()`: empty exactly when `s` is blank, and otherwise without
      white space at either end. */
  function Trim(s: string): (r: string)
    ensures |r| <= |s|
    ensures r == [] || (!IsSpace(r[0]) && !IsSpace(r[|r| - 1]))
    ensures r == [] <==> IsBlank(s)
  {
    var i := LeadingSpace(s, 0);
    var j := TrailingSpace(s, |s|);
    if j <= i then []
    else
      assert !IsBlank(s) by { assert !IsSpace(s[i]); }
      s[i..j]
  }

  /** Trim cuts only white space: the result is a slice of `s` with a blank
      prefix before it and a blank suffix after it. */
  lemma TrimSlice(s: string)
    ensures var r := Trim(s);
      exists i :: 0 <= i <= |s| - |r| && IsBlank(s[..i]) && s[i..i + |r|] == r && IsBlank(s[i + |r|..])
  {
    var r := Trim(s);
    var i := LeadingSpace(s, 0);
    var j := TrailingSpace(s, |s|);
    if j <= i {
      assert r == [];
      assert s[..0] == [] && s[0..0] == [] && s[0..] == s;
      assert IsBlank(s[0..]);
    } else {
      assert r == s[i..j];
      assert IsBlank(s[..i]) by {
        forall k | 0 <= k < i ensures IsSpace(s[..i][k]) { assert s[..i][k] == s[k]; }
      }
      assert IsBlank(s[j..]) by {
        forall k | 0 <= k < |s| - j ensures IsSpace(s[j..][k]) { assert s[j..][k] == s[j + k]; }
      }
      assert s[i..i + |r|] == r;
    }
  }

  /** `pieces.join(sep)`: no pieces give the empty string, one piece gives
      itself, and otherwise the first piece opens the result. JoinSnoc adds
      how a last piece closes it. */
  function Join(pieces: seq<string>, sep: string): (r: string)
    ensures |pieces| == 0 ==> r == ""
    ensures |pieces| >= 1 ==> StartsWith(r, pieces[0])
    ensures |pieces| == 1 ==> r == pieces[0]
  {
    if |pieces| == 0 then ""
    else if |pieces| == 1 then pieces[0]
    else pieces[0] + sep + Join(pieces[1..], sep)
  }

  /** A piece added at the end follows the separator after the others. */
  lemma {:induction false} JoinSnoc(pieces: seq<string>, last: string, sep: string)
    requires |pieces| >= 1
    ensures Join(pieces + [last], sep) == Join(pieces, sep) + sep + last
    decreases |pieces|
  {
    var longer := pieces + [last];
    assert longer[0] == pieces[0];
    assert longer[1..] == pieces[1..] + [last];
    if |pieces| == 1 {
      assert longer[1..] == [last];
    } else {
      JoinSnoc(pieces[1..], last, sep);
    }
  }

  /** `s.split('\r\n')`: the pieces between successive CRLF separators,
      found left to right. There is always at least one piece (the empty
      string splits into `[""]`), no piece holds a CRLF, and joining the
      pieces back with CRLF gives `s`. */
  function SplitCrlf(s: string): (pieces: seq<string>)
    ensures |pieces| >= 1
    ensures StartsWith(s, pieces[0])
    ensures forall k :: 0 <= k < |pieces| ==> !IncludesCrlf(pieces[k])
    ensures Join(pieces, CRLF) == s
  {
    if |s| == 0 then [""]
    else if |s| >= 2 && s[0] == '\r' && s[1] == '\n' then
      var rest := SplitCrlf(s[2..]);
      assert !IncludesCrlf("");
      assert s == "" + CRLF + Join(rest, CRLF);
      [""] + rest
    else
      var rest := SplitCrlf(s[1..]);
      var first := [s[0]] + rest[0];
      ConsWithoutCrlf(s[0], rest[0], s[1..]);
      JoinExtendFirst(s[0], rest, CRLF);
      assert s == [s[0]] + s[1..];
      [first] + rest[1..]
  }

  /** Putting a character before a CRLF-free piece creates no CRLF, unless
      the character is CR and the piece starts with LF. */
  lemma ConsWithoutCrlf(c: char, piece: string, text: string)
    requires !IncludesCrlf(piece) && StartsWith(text, piece)
    requires !(c == '\r' && |text| >= 1 && text[0] == '\n')
    ensures !IncludesCrlf([c] + piece)
  {
    var first := [c] + piece;
    forall i | 0 <= i < |first| - 1 ensures !(first[i] == '\r' && first[i + 1] == '\n') {
      if i == 0 {
        assert first[1] == piece[0] == text[0];
      } else {
        assert first[i] == piece[i - 1] && first[i + 1] == piece[i];
      }
    }
  }

  /** Extending the first piece extends the join by the same prefix. */
  lemma JoinExtendFirst(c: char, pieces: seq<string>, sep: string)
    requires |pieces| >= 1
    ensures Join([[c] + pieces[0]] + pieces[1..], sep) == [c] + Join(pieces, sep)
  {
    var longer := [[c] + pieces[0]] + pieces[1..];
    assert longer[1..] == pieces[1..];
  }

  /** `lines.filter(line => line.trim())`: keeps, unchanged and in order,
      the lines that are not blank. */
  function DropBlank(lines: seq<string>): (kept: seq<string>)
    ensures |kept| <= |lines|
    ensures forall k :: 0 <= k < |kept| ==> !IsBlank(kept[k]) && kept[k] in lines
  {
    if |lines| == 0 then []
    else if Trim(lines[0]) != "" then [lines[0]] + DropBlank(lines[1..])
    else DropBlank(lines[1..])
  }

  /** Splitting a string whose first piece is `a` yields `a` followed by the
      pieces of what comes after the first CRLF. */
  lemma {:induction false} SplitAfterFirstPiece(a: string, b: string)
    requires !IncludesCrlf(a)
    ensures SplitCrlf(a + CRLF + b) == [a] + SplitCrlf(b)
    decreases |a|
  {
    var s := a + CRLF + b;
    if |a| == 0 {
      assert s[2..] == b;
    } else {
      assert !IncludesCrlf(a[1..]) by {
        forall i | 0 <= i < |a[1..]| - 1 ensures !(a[1..][i] == '\r' && a[1..][i + 1] == '\n') {
          assert a[1..][i] == a[i + 1] && a[1..][i + 1] == a[i + 2];
        }
      }
      assert !(s[0] == '\r' && s[1] == '\n') by {
        if |a| >= 2 { assert s[1] == a[1]; } else { assert s[1] == '\r'; }
      }
      assert s[1..] == a[1..] + CRLF + b;
      SplitAfterFirstPiece(a[1..], b);
      assert [s[0]] + a[1..] == a;
    }
  }

  /** A string with no CRLF splits into itself alone. */
  lemma {:induction false} SplitWithoutCrlf(a: string)
    requires !IncludesCrlf(a)
    ensures SplitCrlf(a) == [a]
  {
    var p := SplitCrlf(a);
    if |p| > 1 {
      assert Join(p, CRLF) == p[0] + CRLF + Join(p[1..], CRLF);
      var i := |p[0]|;
      assert a[i] == '\r' && a[i + 1] == '\n';
      assert IncludesCrlf(a);
      assert false;
    }
  }

  /** The converse round trip: joining CRLF-free pieces with CRLF and
      splitting again gives the pieces back. */
  lemma {:induction false} SplitJoin(pieces: seq<string>)
    requires |pieces| >= 1
    requires forall k :: 0 <= k < |pieces| ==> !IncludesCrlf(pieces[k])
    ensures SplitCrlf(Join(pieces, CRLF)) == pieces
    decreases |pieces|
  {
    if |pieces| == 1 {
      SplitWithoutCrlf(pieces[0]);
    } else {
      SplitJoin(pieces[1..]);
      SplitAfterFirstPiece(pieces[0], Join(pieces[1..], CRLF));
    }
  }

  /** Joining with a blank separator is blank exactly when every piece is. */
  lemma {:induction false} JoinBlank(pieces: seq<string>, sep: string)
    requires IsBlank(sep)
    ensures IsBlank(Join(pieces, sep)) <==> forall k :: 0 <= k < |pieces| ==> IsBlank(pieces[k])
    decreases |pieces|
  {
    if |pieces| > 1 {
      JoinBlank(pieces[1..], sep);
      var j := Join(pieces[1..], sep);
      var s := pieces[0] + sep + j;
      assert IsBlank(s) <==> IsBlank(pieces[0]) && IsBlank(j) by {
        if IsBlank(s) {
          assert forall k :: 0 <= k < |pieces[0]| ==> pieces[0][k] == s[k];
          assert forall k :: 0 <= k < |j| ==> j[k] == s[|pieces[0]| + |sep| + k];
        }
      }
      assert forall k :: 1 <= k < |pieces| ==> pieces[k] == pieces[1..][k - 1];
    }
  }

  /** A blank string yields no line worth keeping; a non-blank one keeps at
      least one. */
  lemma {:induction false} DropBlankOfSplit(s: string)
    ensures DropBlank(SplitCrlf(s)) == [] <==> IsBlank(s)
  {
    var p := SplitCrlf(s);
    JoinBlank(p, CRLF);
    DropBlankEmpty(p);
  }

  /** Filtering leaves nothing exactly when every line is blank. */
  lemma {:induction false} DropBlankEmpty(lines: seq<string>)
    ensures DropBlank(lines) == [] <==> forall k :: 0 <= k < |lines| ==> IsBlank(lines[k])
    decreases |lines|
  {
    if |lines| > 0 {
      DropBlankEmpty(lines[1..]);
      assert forall k :: 1 <= k < |lines| ==> lines[k] == lines[1..][k - 1];
    }
  }

  /** Filtering works line by line: the lines kept from two runs of lines
      are those kept from each, in the same order. */
  lemma {:induction false} DropBlankAppend(a: seq<string>, b: seq<string>)
    ensures DropBlank(a + b) == DropBlank(a) + DropBlank(b)
    decreases |a|
  {
    if |a| == 0 {
      assert a + b == b;
    } else {
      assert (a + b)[0] == a[0];
      assert (a + b)[1..] == a[1..] + b;
      DropBlankAppend(a[1..], b);
    }
  }

  /** No line that is not blank is dropped. */
  lemma {:induction false} DropBlankKeeps(lines: seq<string>)
    ensures forall k :: 0 <= k < |lines| && !IsBlank(lines[k]) ==> lines[k] in DropBlank(lines)
    decreases |lines|
  {
    if |lines| > 0 {
      DropBlankKeeps(lines[1..]);
      assert forall k :: 1 <= k < |lines| ==> lines[k] == lines[1..][k - 1];
    }
  }

  /** One line is kept exactly when it is not blank. */
  lemma DropBlankSingle(line: string)
    ensures DropBlank([line]) == if IsBlank(line) then [] else [line]
  {
    assert [line][1..] == [];
  }
}

=== FILE: wrappers.dfy ===
/** Optional values, standing for JavaScript properties that may be
    `undefined` (an error without a `code`, a detail not yet filled in). */
module Wrappers {

  datatype Option<+T> = None | Some(value: T)
}
